=== FILE: README.md ===
# Cairo output device and object cache of poppler, in Dafny

This project models two parts of poppler's rendering code.

`CairoOutputDev` is the backend that the PDF interpreter drives operator by operator. It turns graphics-state updates, paths, text strings and images into calls on a cairo drawing context. The model covers:

- the stroke-style updates: dash, join, cap, width, flatness and miter limit;
- the cached fill and stroke colours;
- the `needFontUpdate` flag and the font it guards;
- the path walker `doPath` and the fill, stroke and clip wrappers around it;
- the glyph loop and render-mode dispatch of `drawString`;
- the pixel-buffer fill loops of `drawImageMask` and `drawImage`.

`PopplerCache` is a small fixed-capacity key/item cache. It keeps keys and items in two parallel arrays.

The drawing context is modelled as the log of calls issued on it (`Surface.Op`), oldest first. Each method of the class `CairoDevice.CairoOutputDev` states its effect as the log before the call plus the calls it issues. The issued calls are given by a specification function:

- `PathCommands` for paths;
- `TextOps` and `RenderOps` for text;
- `JoinOps`, `CapOps`, `DeviceDash` and `FontOps` for style and font.

Lemmas then prove what each of these functions means:

- A path's emitted vertices are its points, transformed, in order.
- Each subpath yields exactly one move-to, one close exactly when it is closed, and one line-to per point or one curve-to per three points.
- Join and cap codes map one-to-one onto cairo's enumerations.
- The render bits agree with Table 106 of ISO 32000-1.
- There are never more glyphs than bytes.

Image buffers are real arrays, filled by loops proved against per-pixel specifications:

- a stencil with rows padded to a multiple of four;
- a colour image in B, G, R, A order with colour-key alpha.

The interpreter's objects are values the backend reads: `GfxState`, `GfxPath`, `GfxFont` and `GfxImageColorMap`. Their floating-point transforms are opaque function values (`Graphics.GfxState`). The font engine's answer and allocation failure are parameters of the methods that need them.

Modules, one per file:

- `Surface`: the cairo call vocabulary;
- `Graphics`: the interpreter's state;
- `LineStyle`;
- `PathGeometry`;
- `TextRun`;
- `ImageBuffers`;
- `ObjectCache`;
- `CairoDevice`.

## Model

| member | source | states |
|---|---|---|
| LineStyle.JoinForCode | poppler/CairoOutputDev.cc:152-164 | a join is selected exactly for codes 0, 1 and 2, and the selected join is the one ISO 32000-1 numbers with that code |
| LineStyle.JoinForCodeInverts | poppler/CairoOutputDev.cc:152-164 | every cairo join style is reached, from its own code |
| LineStyle.CapForCode | poppler/CairoOutputDev.cc:166-178 | a cap is selected exactly for codes 0, 1 and 2, and the selected cap is the one ISO 32000-1 numbers with that code |
| LineStyle.CapForCodeInverts | poppler/CairoOutputDev.cc:166-178 | every cairo cap style is reached, from its own code |
| LineStyle.TransformDash | poppler/CairoOutputDev.cc:138-142 | a fresh array exactly as long as the dash array whose entry i is the device length of dash i |
| CairoDevice.DeviceDash | poppler/CairoOutputDev.cc:136-144 | the dash array in device units: same length, entry i transformed from dash i |
| CairoDevice.JoinOps | poppler/CairoOutputDev.cc:152-164 | at most one call; one exactly for codes 0 to 2, and it sets the join whose code was switched on |
| CairoDevice.CapOps | poppler/CairoOutputDev.cc:166-178 | at most one call; one exactly for codes 0 to 2, and it sets the cap whose code was switched on |
| CairoDevice.FontOps | poppler/CairoOutputDev.cc:212-231 | two calls: the resolved font's face, then a font matrix whose third entry is the state's m21 unchanged |
| CairoDevice.TextOps | poppler/CairoOutputDev.cc:347-435 | nothing without a font, in render mode 3 or for an empty string; otherwise the string's glyph run is shown exactly when bit 0 of the render mode is clear |
| CairoDevice.CairoOutputDev.constructor | poppler/CairoOutputDev.cc:51-56 | a backend with no calls issued yet |
| CairoDevice.CairoOutputDev.SaveState | poppler/CairoOutputDev.cc:95-98 | issues exactly a save; flag, font and colours unchanged |
| CairoDevice.CairoOutputDev.RestoreState | poppler/CairoOutputDev.cc:100-105 | issues exactly a restore and marks the font stale; font and colours unchanged |
| CairoDevice.CairoOutputDev.UpdateLineDash | poppler/CairoOutputDev.cc:128-146 | issues one set-dash with every dash and the phase in device units |
| CairoDevice.CairoOutputDev.UpdateFlatness | poppler/CairoOutputDev.cc:148-150 | issues one set-tolerance with the state's flatness, nothing else changes |
| CairoDevice.CairoOutputDev.UpdateLineJoin | poppler/CairoOutputDev.cc:152-164 | issues the join call of `JoinOps` for the state's code, none for an unknown code |
| CairoDevice.CairoOutputDev.UpdateLineCap | poppler/CairoOutputDev.cc:166-178 | issues the cap call of `CapOps` for the state's code, none for an unknown code |
| CairoDevice.CairoOutputDev.UpdateMiterLimit | poppler/CairoOutputDev.cc:180-182 | issues one set-miter-limit with the state's limit, nothing else changes |
| CairoDevice.CairoOutputDev.UpdateLineWidth | poppler/CairoOutputDev.cc:184-187 | issues one set-line-width with the transformed width, nothing else changes |
| CairoDevice.CairoOutputDev.UpdateFillColor | poppler/CairoOutputDev.cc:189-192 | caches the state's fill colour and issues nothing; the stroke colour, flag and font are unchanged |
| CairoDevice.CairoOutputDev.UpdateStrokeColor | poppler/CairoOutputDev.cc:194-197 | caches the state's stroke colour and issues nothing; the fill colour, flag and font are unchanged |
| CairoDevice.CairoOutputDev.UpdateAll | poppler/CairoOutputDev.cc:107-117 | re-issues dash, join, cap, width, tolerance and miter limit in that order, re-reads both colours and marks the font stale |
| CairoDevice.CairoOutputDev.UpdateCTM | poppler/CairoOutputDev.cc:119-126 | re-issues dash, join, cap and width in that order; flag, font and colours unchanged |
| CairoDevice.CairoOutputDev.UpdateFont | poppler/CairoOutputDev.cc:199-232 | clears the stale flag and adopts the resolved font; a resolved font's face and matrix are issued, an unresolved one issues nothing |
| CairoDevice.CairoOutputDev.DoPath | poppler/CairoOutputDev.cc:234-282 | issues exactly the corrected walk's commands in device space: every point, curve points included, snapped when asked (the code as written leaves curve points unsnapped, see Findings) |
| CairoDevice.CairoOutputDev.Stroke | poppler/CairoOutputDev.cc:284-290 | the unsnapped path, then the stroke colour and a stroke |
| CairoDevice.CairoOutputDev.Fill | poppler/CairoOutputDev.cc:292-299 | the unsnapped path, the nonzero winding rule, the fill colour and a fill |
| CairoDevice.CairoOutputDev.EoFill | poppler/CairoOutputDev.cc:301-308 | the unsnapped path, the even-odd rule, the fill colour and a fill |
| CairoDevice.CairoOutputDev.Clip | poppler/CairoOutputDev.cc:310-316 | the corrected walk of the path, snapped as asked (curve points included), the nonzero winding rule, a clip and a new path |
| CairoDevice.CairoOutputDev.EoClip | poppler/CairoOutputDev.cc:318-324 | the unsnapped path, the even-odd rule, a clip and a new path |
| CairoDevice.CairoOutputDev.DrawString | poppler/CairoOutputDev.cc:326-438 | afterwards the font is never stale; it is re-resolved exactly when it was stale; the calls are that update's font calls followed by `TextOps` for the string |
| CairoDevice.CairoOutputDev.ShowText | poppler/CairoOutputDev.cc:347-437 | the early returns and the glyph loop: issues exactly `TextOps` for the string with the current font and colours |
| CairoDevice.CairoOutputDev.PaintGlyphs | poppler/CairoOutputDev.cc:410-435 | issues exactly the render dispatch `RenderOps` of the run |
| CairoDevice.CairoOutputDev.DrawImageMask | poppler/CairoOutputDev.cc:460-529 | nothing on allocation failure; otherwise the fill colour and a mask through an A8 image of `RowStride(width)`-byte rows whose byte at row y, column x is the stencil byte of sample (x, y) |
| CairoDevice.CairoOutputDev.DrawImage | poppler/CairoOutputDev.cc:531-626 | nothing on allocation failure; otherwise an ARGB32 image of 4 * width-byte rows whose four bytes at pixel (x, y) are that pixel's B, G, R and colour-key alpha, then a paint |
| PathGeometry.Round | poppler/CairoOutputDev.cc:244-246 | C's `round`: within one half of its argument, non-negative for a non-negative argument, and halves rounded away from zero |
| PathGeometry.EmitPath | poppler/CairoOutputDev.cc:240-281 | the corrected walk over the subpaths issues exactly `PathCommands` with every point, curve points included, snapped when asked |
| PathGeometry.PathPrefixStep | poppler/CairoOutputDev.cc:240-241 | subpaths are emitted one after another: the commands for i + 1 subpaths extend those for i by subpath i's |
| PathGeometry.EmitSubpath | poppler/CairoOutputDev.cc:242-280 | one subpath of the corrected walk issues exactly `SubpathCommands`: move-to, one command per line point or curve run (curve points rounded after their transform when snapping), close when closed |
| PathGeometry.BodyStep | poppler/CairoOutputDev.cc:250-274 | a loop step consumes three points for a curve run and one for a line point, and the remaining runs stay complete |
| PathGeometry.BodyShape | poppler/CairoOutputDev.cc:250-274 | a subpath body has no move-to and no close, and its line-tos plus three times its curve-tos account for its points |
| PathGeometry.BodyRuns | poppler/CairoOutputDev.cc:250-274 | a subpath body issues one curve-to per curve run and one line-to per line point that the walk visits |
| PathGeometry.SubpathShape | poppler/CairoOutputDev.cc:242-280 | an empty subpath issues nothing; otherwise exactly one move-to, first, the points accounted for, one curve-to per curve run and one line-to per line point the walk visits, and a close that is last exactly when the subpath is closed |
| PathGeometry.FrameShape | poppler/CairoOutputDev.cc:247-279 | a move-to, a body and an optional close hold one move-to and the body's lines and curves, and end in a close exactly when closed |
| PathGeometry.PointOpVertices | poppler/CairoOutputDev.cc:251-273 | the points of one command are the points it consumes, transformed, in order |
| PathGeometry.BodyVertices | poppler/CairoOutputDev.cc:250-274 | the vertices of a subpath body are its remaining points, transformed, in order |
| PathGeometry.SubpathVertices | poppler/CairoOutputDev.cc:242-280 | the vertices of a subpath's commands are its points, transformed, in order |
| PathGeometry.PathVertices | poppler/CairoOutputDev.cc:234-282 | the vertices of a path's commands are all its points, transformed, in order: none dropped, repeated or reordered |
| PathGeometry.SnappedVerticesOnGrid | poppler/CairoOutputDev.cc:244-270 | in the corrected walk with snapping (`PathCommands(path, xf, true, true)`), every emitted vertex lies on the integer device grid; the walk as written does not (see Findings) |
| PathGeometry.StraightPathUnaffected | poppler/CairoOutputDev.cc:266-273 | for a path without curves the curve-snapping defect changes nothing: the code as written and the corrected walk issue the same commands |
| PathGeometry.CurveSnapDefect | poppler/CairoOutputDev.cc:251-259 | a concrete subpath on which the code as written issues an off-grid curve point while the corrected walk rounds it |
| TextRun.ModeEffect | poppler/CairoOutputDev.cc:410-435 | the eight text rendering modes of Table 106 of ISO 32000-1; modes 4 to 7 and only they clip |
| TextRun.RenderBitsFollowTable | poppler/CairoOutputDev.cc:411-428 | the three bit tests of the dispatch select exactly Table 106's fill, stroke and clip for each mode 0 to 7 |
| TextRun.RenderOps | poppler/CairoOutputDev.cc:410-435 | a fill of the run with the fill colour first, a stroke and a clip, each present exactly when its bit test holds, and the number of calls they make |
| TextRun.RenderOpsOrder | poppler/CairoOutputDev.cc:416-435 | the stroke of the glyph outlines, with the stroke colour, follows the fill; adding the outlines to the clip comes last |
| TextRun.InvisibleModePaintsNothing | poppler/CairoOutputDev.cc:351-355 | mode 3 selects neither fill, stroke nor clip |
| TextRun.WordSpaceShift | poppler/CairoOutputDev.cc:377-390 | a single-byte space adds the word spacing along the writing direction (scaled horizontally) and nothing across it |
| TextRun.Run | poppler/CairoOutputDev.cc:366-409 | the glyph run has one glyph per decoded character |
| TextRun.RunStep | poppler/CairoOutputDev.cc:394-408 | the run is the glyph placed at the pen followed by the run from the next character with the pen advanced |
| TextRun.GlyphStep | poppler/CairoOutputDev.cc:366-409 | one loop iteration extends the glyphs done by the next glyph and leaves the rest of the run to the next character |
| TextRun.WidthsBound | poppler/CairoOutputDev.cc:332-333 | there are no more characters than bytes, so the `len` glyph slots suffice |
| TextRun.WidthsCover | poppler/CairoOutputDev.cc:406-407 | when no character the loop decodes runs past the end (`FitsFrom`, which constrains only the offsets where characters start), the characters consume exactly the string's bytes |
| TextRun.TwoByteFits | poppler/CairoOutputDev.cc:366-407 | a two-byte encoding meets `FitsFrom` on every even-length string from every even offset, and its characters consume exactly the remaining bytes |
| TextRun.BuildGlyphRun | poppler/CairoOutputDev.cc:361-409 | `len` slots, of which the first `count`, one per character, hold the glyph run starting at the current point |
| ImageBuffers.RowStride | poppler/CairoOutputDev.cc:475 | the stencil stride is a multiple of four, at least the width and less than width + 4 |
| ImageBuffers.ClearLowBits | poppler/CairoOutputDev.cc:475 | on 32-bit values `v & ~3` is `v` minus its remainder modulo four, a multiple of four |
| ImageBuffers.StencilSample | poppler/CairoOutputDev.cc:486-497 | a stencil byte is 255 exactly when the sample equals the invert bit and 0 otherwise; 1 gives 0 and 0 gives 255, reversed when inverted |
| ImageBuffers.FillStencil | poppler/CairoOutputDev.cc:486-498 | byte `y * stride + x` holds the stencil byte of sample (x, y) for every x below the width; padding bytes keep their previous contents |
| ImageBuffers.FillStencilRow | poppler/CairoOutputDev.cc:490-497 | one row's samples become stencil bytes from the row start on; no other byte changes |
| ImageBuffers.ColorKeyAlpha | poppler/CairoOutputDev.cc:571-582 | alpha 0 exactly when colour-key ranges are given and every component lies in its range, 255 otherwise |
| ImageBuffers.PixelBytes | poppler/CairoOutputDev.cc:583-593 | four bytes whose last is the alpha |
| ImageBuffers.ConvertPixel | poppler/CairoOutputDev.cc:571-593 | the pixel's B, G, R bytes (copied for device RGB, converted otherwise) and its colour-key alpha |
| ImageBuffers.ColorOffsetsCover | poppler/CairoOutputDev.cc:548 | every byte of the `width * height * 4` buffer is one byte of one pixel |
| ImageBuffers.ColorOffsetsDistinct | poppler/CairoOutputDev.cc:567-594 | distinct bytes of distinct pixels have distinct addresses |
| ImageBuffers.FillColorImage | poppler/CairoOutputDev.cc:567-595 | byte c of pixel (x, y), at `y * 4 * width + 4 * x + c`, is byte c of that pixel's B, G, R, A quadruple |
| ImageBuffers.FillColorRow | poppler/CairoOutputDev.cc:568-594 | one row's pixels are written at their offsets; no byte outside the row changes |
| ImageBuffers.WritePixel | poppler/CairoOutputDev.cc:584-593 | stores the four bytes of one pixel at `dest`; nothing else changes |
| ObjectCache.Find | poppler/PopplerCache.h:25 | the first slot whose key compares equal under the key's `operator==`, or none when no stored key does |
| ObjectCache.RemoveAt | poppler/PopplerCache.h:37-38 | the entries without the evicted one, one fewer |
| ObjectCache.RemoveAtDropsOne | poppler/PopplerCache.h:37-38 | eviction drops exactly the victim: the remaining entries plus the victim are the old entries, in their old order |
| ObjectCache.MoveToFrontPermutes | poppler/PopplerCache.h:34-35 | promoting a hit reorders the entries without adding or losing any, and puts the hit first |
| ObjectCache.LookupKeepsItem | poppler/PopplerCache.h:34-35 | the item a lookup returns is still held by the cache afterwards, under the matching key |
| ObjectCache.LookupTwice | poppler/PopplerCache.h:34-35 | a repeated lookup finds the key in slot 0 and reorders nothing |
| ObjectCache.PutThenLookup | poppler/PopplerCache.h:34-38 | after a put, a lookup of an equal key finds the new item first |
| ObjectCache.EmptyMisses | poppler/PopplerCache.h:34-35 | a lookup in an empty cache finds nothing |
| ObjectCache.FindIsFirst | poppler/PopplerCache.h:25 | a matching slot preceded only by non-matching slots is the one found |
| ObjectCache.PopplerCache.constructor | poppler/PopplerCache.h:31 | an empty cache whose capacity is fixed at `cacheSizeA` |
| ObjectCache.PopplerCache.ShiftDown | poppler/PopplerCache.h:41-42 | both arrays move down one slot together over `0 .. hi`, keeping keys and items aligned |
| ObjectCache.PopplerCache.Lookup | poppler/PopplerCache.h:34-35 | a hit returns the first matching item and moves it to slot 0; a miss returns nothing and changes nothing; the occupancy never changes |
| ObjectCache.PopplerCache.Put | poppler/PopplerCache.h:37-38 | the new pair is in slot 0; below capacity every old entry is kept one slot down, and at capacity exactly one old entry is evicted |

## Left out

- Floating point is modelled by exact reals. Transforms (`transform`, `textTransformDelta`, `transformWidth`), the colour map's `getRGB` with `soutRound`, and the font's `getNextChar` are opaque function values supplied with the state.
- The image pattern matrix and its inversion (poppler/CairoOutputDev.cc:508-520, 605-617) are not modelled. The mask and paint calls carry the image but no matrix or filter.
- The NULL checks on the cairo image surface and pattern (poppler/CairoOutputDev.cc:502-506, 599-603) are not modelled: cairo's allocation is outside the model.
- An allocation failure of the pixel buffer is the `allocFails` parameter. Buffers are never freed in the model, so the early returns that leak `buffer` and `imgStr` are not visible.
- `ImageStream` decoding is replaced by the decoded samples: the rows of `lines` and `pixels`.
- The font engine's `getFont` is the `resolved` parameter of `UpdateFont` and `DrawString`.
- CairoDevice.CairoOutputDev.UpdateFont: with no resolved font, the source dereferences a null `currentFont` (poppler/CairoOutputDev.cc:216, 222). The model issues no font call in that case.
- CairoDevice.FontOps: states the face call and only the m21 entry of the font matrix. The other three entries are products of opaque reals, given only by its body.
- CairoDevice.CairoOutputDev.constructor: `needFontUpdate`, `currentFont` and the colours are left arbitrary, as the source never initialises them. FreeType initialisation and the font engine are left out.
- `startDoc`, `startPage`, `endPage`, the destructor, the Type 3 hooks, `endTextObject` and `drawLink` are left out. They are set-up, teardown or empty stubs.
- The `LOG` tracing calls are left out.
- `updateCTM`'s matrix arguments are unused in the source and are not modelled.
- CairoDevice.CairoOutputDev.DrawString: requires `Progresses` (every decoded character consumes at least one byte) only when the glyph loop is reached, that is with a font and a render mode other than 3. `Progresses` still quantifies over every byte offset, while the source needs progress only where characters start; a decoder that returns 0 only at offsets the loop never visits is excluded. With a zero-byte character at a visited offset, the source's glyph loop would never end.
- TextRun.WidthsCover: requires `FitsFrom`. A character claiming more bytes than remain ends the source loop early, and the byte count is then not exact.
- Render modes outside 0..7 are not rejected by the source. The model follows its bit tests on the 32-bit value, and `ModeEffect` covers only 0..7.
- PathGeometry.EmitPath: requires well-formed subpaths: one curve flag per point, and every curve run complete. The interpreter's `GfxPath` always builds such subpaths, and the source would read past the points otherwise.
- The 32-bit overflow of `height * row_stride` and `width * height * 4` is not modelled. Sizes are unbounded naturals.
- CairoDevice.CairoOutputDev.DoPath: issues the corrected walk. With snapping, it rounds curve points after their transform, whereas poppler/CairoOutputDev.cc:252-259 issues them unrounded. The code as written is `PathCommands(path, xf, snap, false)`, exhibited by `PathGeometry.CurveSnapDefect`. The two coincide on paths without curves (`PathGeometry.StraightPathUnaffected`) and whenever snapping is off.
- CairoDevice.CairoOutputDev.Clip: issues the corrected walk through `DoPath`. It differs from poppler/CairoOutputDev.cc:252-259 only on curve runs when `snapToGrid` holds.
- PathGeometry.EmitPath: is the corrected walk. On curve runs under snapping it differs from poppler/CairoOutputDev.cc:252-259, which leave curve points unrounded.
- PathGeometry.EmitSubpath: rounds curve points after their own transform. Lines 252-259 round stale values before the transform, so the source issues the curve points unrounded.
- `PopplerCache.cc` is not part of this model; only the declaration is.
  - The lookup order is modelled as a first-match scan from slot 0, with a hit promoted to slot 0.
  - `put` is modelled as inserting at slot 0.
  - ObjectCache.PopplerCache.Put: the entry evicted from a full cache is left unspecified (some existing entry) instead of assuming an eviction order.
  - Destruction of the evicted key and item is outside the model.
- ObjectCache.PopplerCache.constructor: requires a capacity of at least one. A zero-capacity cache has no slot in which to put anything.
- Key equality is an arbitrary function of two keys. The cache does not assume it is an equivalence.
- `SignatureInfo.h` is a plain data holder outside this model.

## Findings

| source | as written | input that shows it | evidently intended | confidence | as-written member | corrected member |
|---|---|---|---|---|---|---|
| poppler/CairoOutputDev.cc:251-259 | with grid snapping, the curve branch rounds `x1..y3` before the three `transform` calls overwrite them, so curve points are issued unrounded | a subpath (0,0), curve run (0.25,0.25), (0.5,0.5), (1.25,1.25) under the identity transform with snapping: the curve-to is issued through (0.25,0.25) | round each curve point after its own transform, as the move-to and line-to branches do | not executed | PathGeometry.CurveSnapDefect | PathGeometry.SnappedVerticesOnGrid |

=== FILE: cairo_output_dev.dfy ===
/**
 * `CairoOutputDev`: the backend object the interpreter drives operator by
 * operator.  It owns the drawing context, modelled as the log of calls
 * issued on it, the cached fill and stroke colours, the resolved font and
 * the `needFontUpdate` flag that says whether that font is stale.
 */
module CairoDevice {
  import opened Wrappers
  import opened Surface
  import opened Graphics
  import opened LineStyle
  import opened PathGeometry
  import opened TextRun
  import opened ImageBuffers

  /** Every dash length, and nothing else, converted to device units. */
  function DeviceDash(dashes: seq<real>, transformWidth: real -> real): (d: seq<real>)
    ensures |d| == |dashes|
    ensures forall i :: 0 <= i < |dashes| ==> d[i] == transformWidth(dashes[i])
  {
    if |dashes| == 0 then [] else [transformWidth(dashes[0])] + DeviceDash(dashes[1..], transformWidth)
  }

  /** The call `updateLineJoin` issues: one for a known code, none otherwise. */
  function JoinOps(code: int): (ops: seq<Op>)
    ensures |ops| <= 1
    ensures |ops| == 1 <==> 0 <= code <= 2
    ensures |ops| == 1 ==> ops[0].SetLineJoin? && JoinCode(ops[0].join) == code
  {
    match JoinForCode(code)
    case Some(join) => [SetLineJoin(join)]
    case None => []
  }

  /** The call `updateLineCap` issues: one for a known code, none otherwise. */
  function CapOps(code: int): (ops: seq<Op>)
    ensures |ops| <= 1
    ensures |ops| == 1 <==> 0 <= code <= 2
    ensures |ops| == 1 ==> ops[0].SetLineCap? && CapCode(ops[0].cap) == code
  {
    match CapForCode(code)
    case Some(cap) => [SetLineCap(cap)]
    case None => []
  }

  /**
   * The font calls of `updateFont` for a resolved font: its face, then its
   * matrix, the font transformation with the first row scaled by the
   * horizontal scaling and the second column scaled by minus the
   * substitution correction.
   */
  function FontOps(st: GfxState, font: CairoFont): (ops: seq<Op>)
    ensures |ops| == 2 && ops[0] == SetFontFace(font.face) && ops[1].SetFontMatrix?
    ensures ops[1].yx == st.fontTransMat.2
  {
    var (m11, m12, m21, m22) := st.fontTransMat;
    var w := font.correction;
    [SetFontFace(font.face),
     SetFontMatrix(m11 * st.horizScaling, m12 * st.horizScaling * -w, m21, m22 * -w)]
  }

  /**
   * What `drawString` paints once the font is settled: nothing without a
   * font, in invisible mode 3 or for an empty string; otherwise the glyph
   * run of the whole string, dispatched on the render mode.
   */
  function TextOps(st: GfxState, font: Option<CairoFont>, s: seq<Byte>, fill: RGB, stroke: RGB): (ops: seq<Op>)
    requires font.Some? && st.render != 3 ==> Progresses(st.font, s)
    ensures font.None? || st.render == 3 || |s| == 0 ==> ops == []
    ensures font.Some? && st.render != 3 ==>
      (ShowGlyphs(Run(st, font.value, s, 0, Pt(st.curX, st.curY))) in ops <==>
       |s| > 0 && FillsText(st.render))
  {
    if font.None? || st.render == 3 || |s| == 0 then []
    else RenderOps(st.render, Run(st, font.value, s, 0, Pt(st.curX, st.curY)), fill, stroke)
  }

  /** A stencil image surface over `height` rows of `RowStride(width)` bytes holding the samples' stencil bytes. */
  ghost predicate StencilImage(image: Image, lines: seq<seq<Byte>>, width: nat, height: nat, invert: bool)
    requires |lines| == height && forall y :: 0 <= y < height ==> |lines[y]| == width
  {
    image.format == A8 && image.width == width && image.height == height &&
    image.stride == RowStride(width) && |image.data| == height * RowStride(width) &&
    forall y, x :: 0 <= y < height && 0 <= x < width ==>
      Offset(RowStride(width), y, x) < |image.data| &&
      image.data[Offset(RowStride(width), y, x)] == StencilByte(lines[y][x], invert)
  }

  /** A colour image surface of unpadded rows holding each pixel's B, G, R, A bytes. */
  ghost predicate ColorImage(image: Image, pixels: seq<seq<seq<Byte>>>, width: nat, height: nat,
                             colorMap: ColorMap, maskColors: Option<seq<int>>)
    requires ImageShape(pixels, width, height, colorMap.nComps)
    requires IsIdentityTransform(colorMap.space) ==> colorMap.nComps >= 3
    requires maskColors.Some? ==> |maskColors.value| == 2 * colorMap.nComps
  {
    image.format == ARGB32 && image.width == width && image.height == height &&
    image.stride == width * 4 && |image.data| == width * height * 4 &&
    forall y, x, c :: 0 <= y < height && 0 <= x < width && 0 <= c < 4 ==>
      ColorOffset(width, y, x, c) < |image.data| &&
      image.data[ColorOffset(width, y, x, c)]
        == PixelBytes(pixels[y][x], colorMap, Alpha(pixels[y][x], maskColors))[c]
  }

  class CairoOutputDev {
    /** The calls issued on the drawing context, oldest first. */
    var log: seq<Op>
    /** Set when the resolved font may be stale; `drawString` refreshes it first. */
    var needFontUpdate: bool
    /** The font resolved by the last `updateFont`; `None` when resolution failed. */
    var currentFont: Option<CairoFont>
    var fillColor: RGB
    var strokeColor: RGB

    /**
     * A backend with an empty drawing context.  The font flag, the font and
     * the colours are left as they happen to be, as the source leaves them.
     */
    constructor ()
      ensures log == []
    {
      log := [];
    }

    method SaveState()
      modifies this
      ensures log == old(log) + [Save]
      ensures needFontUpdate == old(needFontUpdate) && currentFont == old(currentFont)
      ensures fillColor == old(fillColor) && strokeColor == old(strokeColor)
    {
      log := log + [Save];
    }

    /** Restores the surface state and marks the font stale. */
    method RestoreState()
      modifies this
      ensures log == old(log) + [Restore]
      ensures needFontUpdate
      ensures currentFont == old(currentFont)
      ensures fillColor == old(fillColor) && strokeColor == old(strokeColor)
    {
      log := log + [Restore];
      needFontUpdate := true;
    }

    /** The dash array and its phase, in device units. */
    method UpdateLineDash(st: GfxState)
      modifies this
      ensures log == old(log) + [SetDash(DeviceDash(st.lineDash, st.transformWidth), st.transformWidth(st.dashStart))]
      ensures needFontUpdate == old(needFontUpdate) && currentFont == old(currentFont)
      ensures fillColor == old(fillColor) && strokeColor == old(strokeColor)
    {
      var transformedDash := TransformDash(st.lineDash, st.transformWidth);
      var transformedStart := st.transformWidth(st.dashStart);
      assert transformedDash[..] == DeviceDash(st.lineDash, st.transformWidth);
      log := log + [SetDash(transformedDash[..], transformedStart)];
    }

    method UpdateFlatness(st: GfxState)
      modifies this
      ensures log == old(log) + [SetTolerance(st.flatness)]
      ensures needFontUpdate == old(needFontUpdate) && currentFont == old(currentFont)
      ensures fillColor == old(fillColor) && strokeColor == old(strokeColor)
    {
      log := log + [SetTolerance(st.flatness)];
    }

    /** Codes 0, 1 and 2 select miter, round and bevel joins; any other code issues nothing. */
    method UpdateLineJoin(st: GfxState)
      modifies this
      ensures log == old(log) + JoinOps(st.lineJoin)
      ensures needFontUpdate == old(needFontUpdate) && currentFont == old(currentFont)
      ensures fillColor == old(fillColor) && strokeColor == old(strokeColor)
    {
      var code := st.lineJoin;
      if code == 0 {
        log := log + [SetLineJoin(JoinMiter)];
      } else if code == 1 {
        log := log + [SetLineJoin(JoinRound)];
      } else if code == 2 {
        log := log + [SetLineJoin(JoinBevel)];
      }
    }

    /** Codes 0, 1 and 2 select butt, round and square caps; any other code issues nothing. */
    method UpdateLineCap(st: GfxState)
      modifies this
      ensures log == old(log) + CapOps(st.lineCap)
      ensures needFontUpdate == old(needFontUpdate) && currentFont == old(currentFont)
      ensures fillColor == old(fillColor) && strokeColor == old(strokeColor)
    {
      var code := st.lineCap;
      if code == 0 {
        log := log + [SetLineCap(CapButt)];
      } else if code == 1 {
        log := log + [SetLineCap(CapRound)];
      } else if code == 2 {
        log := log + [SetLineCap(CapSquare)];
      }
    }

    method UpdateMiterLimit(st: GfxState)
      modifies this
      ensures log == old(log) + [SetMiterLimit(st.miterLimit)]
      ensures needFontUpdate == old(needFontUpdate) && currentFont == old(currentFont)
      ensures fillColor == old(fillColor) && strokeColor == old(strokeColor)
    {
      log := log + [SetMiterLimit(st.miterLimit)];
    }

    method UpdateLineWidth(st: GfxState)
      modifies this
      ensures log == old(log) + [SetLineWidth(st.transformedLineWidth)]
      ensures needFontUpdate == old(needFontUpdate) && currentFont == old(currentFont)
      ensures fillColor == old(fillColor) && strokeColor == old(strokeColor)
    {
      log := log + [SetLineWidth(st.transformedLineWidth)];
    }

    /** Caches the fill colour; nothing is issued on the surface. */
    method UpdateFillColor(st: GfxState)
      modifies this
      ensures log == old(log) && fillColor == st.fillRGB && strokeColor == old(strokeColor)
      ensures needFontUpdate == old(needFontUpdate) && currentFont == old(currentFont)
    {
      fillColor := st.fillRGB;
    }

    /** Caches the stroke colour; nothing is issued on the surface. */
    method UpdateStrokeColor(st: GfxState)
      modifies this
      ensures log == old(log) && strokeColor == st.strokeRGB && fillColor == old(fillColor)
      ensures needFontUpdate == old(needFontUpdate) && currentFont == old(currentFont)
    {
      strokeColor := st.strokeRGB;
    }

    /**
     * Re-reads the whole stroke style and both colours from the state and
     * marks the font stale.
     */
    method UpdateAll(st: GfxState)
      modifies this
      ensures log == old(log) + [SetDash(DeviceDash(st.lineDash, st.transformWidth), st.transformWidth(st.dashStart))]
                    + JoinOps(st.lineJoin) + CapOps(st.lineCap)
                    + [SetLineWidth(st.transformedLineWidth), SetTolerance(st.flatness), SetMiterLimit(st.miterLimit)]
      ensures fillColor == st.fillRGB && strokeColor == st.strokeRGB
      ensures needFontUpdate && currentFont == old(currentFont)
    {
      UpdateLineDash(st);
      UpdateLineJoin(st);
      UpdateLineCap(st);
      UpdateLineWidth(st);
      UpdateFlatness(st);
      UpdateMiterLimit(st);
      UpdateFillColor(st);
      UpdateStrokeColor(st);
      needFontUpdate := true;
    }

    /** A new transformation changes the device size of dashes and widths: re-issue them. */
    method UpdateCTM(st: GfxState)
      modifies this
      ensures log == old(log) + [SetDash(DeviceDash(st.lineDash, st.transformWidth), st.transformWidth(st.dashStart))]
                    + JoinOps(st.lineJoin) + CapOps(st.lineCap) + [SetLineWidth(st.transformedLineWidth)]
      ensures needFontUpdate == old(needFontUpdate) && currentFont == old(currentFont)
      ensures fillColor == old(fillColor) && strokeColor == old(strokeColor)
    {
      UpdateLineDash(st);
      UpdateLineJoin(st);
      UpdateLineCap(st);
      UpdateLineWidth(st);
    }

    /**
     * Clears the stale-font flag and adopts the font the font engine
     * resolved for the state's font; a resolved font is selected on the
     * surface with its face and matrix.
     */
    method UpdateFont(st: GfxState, resolved: Option<CairoFont>)
      modifies this
      ensures !needFontUpdate && currentFont == resolved
      ensures resolved.None? ==> log == old(log)
      ensures resolved.Some? ==> log == old(log) + FontOps(st, resolved.value)
      ensures fillColor == old(fillColor) && strokeColor == old(strokeColor)
    {
      needFontUpdate := false;
      currentFont := resolved;
      if resolved.Some? {
        var (m11, m12, m21, m22) := st.fontTransMat;
        m11 := m11 * st.horizScaling;
        m12 := m12 * st.horizScaling;
        var w := resolved.value.correction;
        m12 := m12 * -w;
        m22 := m22 * -w;
        assert FontOps(st, resolved.value)[1] == SetFontMatrix(m11, m12, m21, m22);
        log := log + [SetFontFace(resolved.value.face), SetFontMatrix(m11, m12, m21, m22)];
      }
    }

    /** Issues the path's commands, in device space, snapped when asked. */
    method DoPath(st: GfxState, path: seq<Subpath>, snapToGrid: bool)
      requires WellFormedPath(path)
      modifies this
      ensures log == old(log) + PathCommands(path, st.transform, snapToGrid, snapToGrid)
      ensures needFontUpdate == old(needFontUpdate) && currentFont == old(currentFont)
      ensures fillColor == old(fillColor) && strokeColor == old(strokeColor)
    {
      var cmds := EmitPath(path, st.transform, snapToGrid);
      log := log + cmds;
    }

    /** Strokes the current path, unsnapped, with the stroke colour. */
    method Stroke(st: GfxState)
      requires WellFormedPath(st.path)
      modifies this
      ensures log == old(log) + PathCommands(st.path, st.transform, false, false)
                    + [SetSourceRgb(strokeColor), StrokePath]
      ensures needFontUpdate == old(needFontUpdate) && currentFont == old(currentFont)
      ensures fillColor == old(fillColor) && strokeColor == old(strokeColor)
    {
      DoPath(st, st.path, false);
      log := log + [SetSourceRgb(strokeColor), StrokePath];
    }

    /** Fills the current path, unsnapped, with the nonzero winding rule and the fill colour. */
    method Fill(st: GfxState)
      requires WellFormedPath(st.path)
      modifies this
      ensures log == old(log) + PathCommands(st.path, st.transform, false, false)
                    + [SetFillRule(Winding), SetSourceRgb(fillColor), FillPath]
      ensures needFontUpdate == old(needFontUpdate) && currentFont == old(currentFont)
      ensures fillColor == old(fillColor) && strokeColor == old(strokeColor)
    {
      DoPath(st, st.path, false);
      log := log + [SetFillRule(Winding), SetSourceRgb(fillColor), FillPath];
    }

    /** Fills the current path, unsnapped, with the even-odd rule and the fill colour. */
    method EoFill(st: GfxState)
      requires WellFormedPath(st.path)
      modifies this
      ensures log == old(log) + PathCommands(st.path, st.transform, false, false)
                    + [SetFillRule(EvenOdd), SetSourceRgb(fillColor), FillPath]
      ensures needFontUpdate == old(needFontUpdate) && currentFont == old(currentFont)
      ensures fillColor == old(fillColor) && strokeColor == old(strokeColor)
    {
      DoPath(st, st.path, false);
      log := log + [SetFillRule(EvenOdd), SetSourceRgb(fillColor), FillPath];
    }

    /**
     * Intersects the clip with the current path (nonzero winding), snapped
     * when asked, then consumes the path.
     */
    method Clip(st: GfxState, snapToGrid: bool)
      requires WellFormedPath(st.path)
      modifies this
      ensures log == old(log) + PathCommands(st.path, st.transform, snapToGrid, snapToGrid)
                    + [SetFillRule(Winding), ClipPath, NewPath]
      ensures needFontUpdate == old(needFontUpdate) && currentFont == old(currentFont)
      ensures fillColor == old(fillColor) && strokeColor == old(strokeColor)
    {
      DoPath(st, st.path, snapToGrid);
      log := log + [SetFillRule(Winding), ClipPath, NewPath];
    }

    /** Intersects the clip with the current path (even-odd), never snapped, then consumes the path. */
    method EoClip(st: GfxState)
      requires WellFormedPath(st.path)
      modifies this
      ensures log == old(log) + PathCommands(st.path, st.transform, false, false)
                    + [SetFillRule(EvenOdd), ClipPath, NewPath]
      ensures needFontUpdate == old(needFontUpdate) && currentFont == old(currentFont)
      ensures fillColor == old(fillColor) && strokeColor == old(strokeColor)
    {
      DoPath(st, st.path, false);
      log := log + [SetFillRule(EvenOdd), ClipPath, NewPath];
    }

    /**
     * Shows the string `s` in the state's font.  A stale font is refreshed
     * first from `resolved`, the font engine's answer.  Nothing is painted
     * without a font, in invisible mode 3 or for an empty string; otherwise
     * the glyph run is painted as the render mode's bits select.
     */
    method DrawString(st: GfxState, s: seq<Byte>, resolved: Option<CairoFont>)
      requires (if needFontUpdate then resolved else currentFont).Some? && st.render != 3 ==> Progresses(st.font, s)
      modifies this
      ensures !needFontUpdate
      ensures currentFont == (if old(needFontUpdate) then resolved else old(currentFont))
      ensures log == old(log) + (if old(needFontUpdate) && resolved.Some? then FontOps(st, resolved.value) else [])
                    + TextOps(st, currentFont, s, fillColor, strokeColor)
      ensures fillColor == old(fillColor) && strokeColor == old(strokeColor)
    {
      if needFontUpdate {
        UpdateFont(st, resolved);
      }
      ShowText(st, s);
    }

    /**
     * The part of `drawString` after the font update: the early returns
     * without a font, in mode 3 and for an empty string, then the glyph
     * loop and the render dispatch.
     */
    method ShowText(st: GfxState, s: seq<Byte>)
      requires currentFont.Some? && st.render != 3 ==> Progresses(st.font, s)
      modifies this
      ensures needFontUpdate == old(needFontUpdate) && currentFont == old(currentFont)
      ensures log == old(log) + TextOps(st, currentFont, s, fillColor, strokeColor)
      ensures fillColor == old(fillColor) && strokeColor == old(strokeColor)
    {
      if currentFont.None? {
        return;
      }
      var render := st.render;
      if render == 3 {
        return;
      }
      if |s| == 0 {
        return;
      }
      var glyphs, count := BuildGlyphRun(st, currentFont.value, s);
      PaintGlyphs(render, glyphs[..count]);
    }

    /**
     * The render dispatch of `drawString`: fill with the fill colour when bit
     * 0 is clear, stroke the outlines with the stroke colour when the two low
     * bits are 1 or 2, add the outlines to the clip when bit 2 is set.
     */
    method PaintGlyphs(render: bv32, run: seq<Glyph>)
      modifies this
      ensures log == old(log) + RenderOps(render, run, fillColor, strokeColor)
      ensures needFontUpdate == old(needFontUpdate) && currentFont == old(currentFont)
      ensures fillColor == old(fillColor) && strokeColor == old(strokeColor)
    {
      if FillsText(render) {
        log := log + [SetSourceRgb(fillColor), ShowGlyphs(run)];
      }
      if StrokesText(render) {
        log := log + [SetSourceRgb(strokeColor), GlyphPath(run), StrokePath];
      }
      if ClipsText(render) {
        log := log + [GlyphPath(run), ClipPath];
      }
    }

    /**
     * Paints the fill colour through a stencil built from the mask's
     * samples; when the buffer cannot be allocated nothing is issued.
     */
    method DrawImageMask(lines: seq<seq<Byte>>, width: nat, height: nat, invert: bool, allocFails: bool)
      requires |lines| == height && forall y :: 0 <= y < height ==> |lines[y]| == width
      modifies this
      ensures allocFails ==> log == old(log)
      ensures !allocFails ==>
        |log| == |old(log)| + 2 && log[..|old(log)|] == old(log) &&
        log[|old(log)|] == SetSourceRgb(fillColor) &&
        log[|old(log)| + 1].MaskWith? && StencilImage(log[|old(log)| + 1].mask, lines, width, height, invert)
      ensures needFontUpdate == old(needFontUpdate) && currentFont == old(currentFont)
      ensures fillColor == old(fillColor) && strokeColor == old(strokeColor)
    {
      if allocFails {
        return;
      }
      var rowStride := RowStride(width);
      var buffer := new Byte[height * rowStride];
      FillStencil(buffer, lines, width, height, invert);
      var image := Image(A8, buffer[..], width, height, rowStride);
      log := log + [SetSourceRgb(fillColor), MaskWith(image)];
    }

    /**
     * Paints an image built from its decoded pixels, with colour-key
     * transparency; when the buffer cannot be allocated nothing is issued.
     */
    method DrawImage(pixels: seq<seq<seq<Byte>>>, width: nat, height: nat, colorMap: ColorMap,
                     maskColors: Option<seq<int>>, allocFails: bool)
      requires ImageShape(pixels, width, height, colorMap.nComps)
      requires IsIdentityTransform(colorMap.space) ==> colorMap.nComps >= 3
      requires maskColors.Some? ==> |maskColors.value| == 2 * colorMap.nComps
      modifies this
      ensures allocFails ==> log == old(log)
      ensures !allocFails ==>
        |log| == |old(log)| + 2 && log[..|old(log)|] == old(log) &&
        log[|old(log)|].SetSourceImage? && log[|old(log)| + 1] == Paint &&
        ColorImage(log[|old(log)|].source, pixels, width, height, colorMap, maskColors)
      ensures needFontUpdate == old(needFontUpdate) && currentFont == old(currentFont)
      ensures fillColor == old(fillColor) && strokeColor == old(strokeColor)
    {
      if allocFails {
        return;
      }
      var buffer := new Byte[width * height * 4];
      FillColorImage(buffer, pixels, width, height, colorMap, maskColors);
      var image := Image(ARGB32, buffer[..], width, height, width * 4);
      log := log + [SetSourceImage(image), Paint];
    }
  }
}

=== FILE: graphics.dfy ===
/**
 * What the backend reads from the interpreter: a snapshot of the graphics
 * state (`GfxState`), its current path (`GfxPath`), the current font
 * (`GfxFont`) and an image's colour map (`GfxImageColorMap`).  All of these
 * belong to the interpreter; their floating-point transforms are kept as
 * uninterpreted function values.
 */
module Graphics {
  import opened Surface

  /**
   * One subpath: its points, the per-point curve flag (`getCurve`) and
   * whether it is closed.  A curve run is flagged on its first point and
   * consists of that point and the next two.
   */
  datatype Subpath = Subpath(pts: seq<Pt>, curve: seq<bool>, closed: bool)

  /** Walking from point `j`, every flagged curve run has its three points. */
  ghost predicate RunsComplete(curve: seq<bool>, j: nat)
    decreases |curve| - j
  {
    j >= |curve| ||
    (if curve[j] then j + 2 < |curve| && RunsComplete(curve, j + 3)
     else RunsComplete(curve, j + 1))
  }

  /** The shape `GfxPath` always builds: one flag per point, curve runs complete. */
  ghost predicate WellFormedSubpath(sp: Subpath)
  {
    |sp.pts| == |sp.curve| && RunsComplete(sp.curve, 1)
  }

  ghost predicate WellFormedPath(path: seq<Subpath>)
  {
    forall i :: 0 <= i < |path| ==> WellFormedSubpath(path[i])
  }

  /**
   * What `GfxFont::getNextChar` reports for the character starting at the
   * current byte: how many bytes it takes, its code, its Unicode mapping,
   * its advance and its origin in glyph space.
   */
  datatype CharInfo = CharInfo(n: nat, code: int, unicode: seq<int>,
                               dx: real, dy: real, originX: real, originY: real)

  /** The interpreter's font: writing mode and the character decoder. */
  datatype GfxFont = GfxFont(vertical: bool, nextChar: seq<Byte> -> CharInfo)

  /** The decoder consumes at least one byte at every position of `s`. */
  ghost predicate Progresses(font: GfxFont, s: seq<Byte>)
  {
    forall k :: 0 <= k < |s| ==> 1 <= font.nextChar(s[k..]).n
  }

  /**
   * Decoding from byte `p` character by character, as the glyph loop does,
   * no character reports more bytes than remain.  Only the offsets where a
   * character starts are constrained.
   */
  ghost predicate FitsFrom(font: GfxFont, s: seq<Byte>, p: nat)
    requires Progresses(font, s)
    decreases |s| - p
  {
    p >= |s| ||
    (font.nextChar(s[p..]).n <= |s| - p && FitsFrom(font, s, p + font.nextChar(s[p..]).n))
  }

  /**
   * A font resolved by the font engine (`CairoFont`): its face, its glyph
   * lookup by code and Unicode, and the substitution correction factor.
   */
  datatype CairoFont = CairoFont(face: int, glyphOf: (int, seq<int>) -> int, correction: real)

  /** The graphics state as the backend reads it. */
  datatype GfxState = GfxState(
    transform: Pt -> Pt,             // user space to device space (`transform`)
    textDelta: Pt -> Pt,             // text-space delta to user space (`textTransformDelta`)
    transformWidth: real -> real,    // user-space length to device length (`transformWidth`)
    lineDash: seq<real>,
    dashStart: real,
    lineJoin: int,
    lineCap: int,
    transformedLineWidth: real,
    flatness: real,
    miterLimit: real,
    fillRGB: RGB,
    strokeRGB: RGB,
    path: seq<Subpath>,
    font: GfxFont,
    fontTransMat: (real, real, real, real),
    render: bv32,
    fontSize: real,
    charSpace: real,
    wordSpace: real,
    horizScaling: real,
    rise: real,
    curX: real,
    curY: real)

  /** Colour-space families, as far as the image path distinguishes them. */
  datatype ColorSpaceMode = DeviceGray | DeviceRGB | DeviceCMYK | ICCBased(alt: ColorSpaceMode) | OtherSpace

  /** An 8-bit-per-channel colour, the rounded result of the colour map's RGB conversion. */
  datatype Rgb8 = Rgb8(r: Byte, g: Byte, b: Byte)

  /**
   * An image's colour map: its colour space, its number of components per
   * pixel and its conversion of one pixel's components to rounded RGB bytes.
   */
  datatype ColorMap = ColorMap(space: ColorSpaceMode, nComps: nat, toRgb: seq<Byte> -> Rgb8)
}

=== FILE: image_buffers.dfy ===
/**
 * The pixel buffers of `drawImageMask` and `drawImage`.  A stencil holds
 * one alpha byte per pixel in rows padded to a multiple of four bytes
 * (stencil masking, section 8.9.6.2 of ISO 32000-1); a colour image holds
 * four bytes per pixel, B, G, R and A, in unpadded rows, with alpha taken
 * from colour-key ranges (colour key masking, section 8.9.6.4 of
 * ISO 32000-1).  Both are filled row by row through an advancing `dest`
 * index into a buffer whose previous contents are arbitrary.
 */
module ImageBuffers {
  import opened Wrappers
  import opened Surface
  import opened Graphics

  /**
   * The stencil row stride `(width + 3) & ~3`: clearing the two low bits of
   * `width + 3` rounds the width up to the next multiple of four.
   */
  function RowStride(width: nat): (stride: nat)
    ensures stride % 4 == 0 && width <= stride < width + 4
  {
    (width + 3) - (width + 3) % 4
  }

  /**
   * On 32-bit values, clearing the two low bits is subtracting the
   * remainder modulo four, which is how `RowStride` is written.
   */
  lemma ClearLowBits(v: bv32)
    ensures v & !3 == v - v % 4
    ensures (v & !3) % 4 == 0
  {
  }

  /** The byte address of column `x` of row `y` when rows lie `stride` bytes apart. */
  function Offset(stride: nat, y: nat, x: nat): nat
  {
    y * stride + x
  }

  function InvertBit(invert: bool): bv8
  {
    if invert then 1 else 0
  }

  /** The stencil byte for one sample: 0 when `sample ^ invert_bit` is non-zero, else 255. */
  function StencilByte(sample: Byte, invert: bool): Byte
  {
    if (sample as bv8) ^ InvertBit(invert) != 0 then 0 else 255
  }

  /**
   * A sample is painted (255) exactly when it equals the invert bit; for
   * one-bit samples that is 1 -> 0 and 0 -> 255 without inversion, and the
   * reverse with it.
   */
  lemma StencilSample(sample: Byte, invert: bool)
    ensures StencilByte(sample, invert) == 255 <==> sample == (if invert then 1 else 0)
    ensures StencilByte(sample, invert) != 255 ==> StencilByte(sample, invert) == 0
    ensures sample == 1 ==> StencilByte(sample, invert) == (if invert then 255 else 0)
    ensures sample == 0 ==> StencilByte(sample, invert) == (if invert then 0 else 255)
  {
  }

  /** Row `y` of rows `stride` bytes apart ends where row `y + 1` begins, inside `height` rows. */
  lemma {:induction false} RowFits(y: nat, height: nat, stride: nat)
    requires y < height
    ensures y * stride + stride == (y + 1) * stride
    ensures (y + 1) * stride <= height * stride
    decreases height - y
  {
    if y + 1 < height {
      RowFits(y + 1, height, stride);
    }
  }

  /**
   * The fill loop of `drawImageMask`.  Every sample of every row becomes its
   * stencil byte at `y * stride + x`, and the padding bytes past `width` in
   * each row are never written: they keep whatever the freshly allocated
   * buffer held.
   */
  method FillStencil(buffer: array<Byte>, lines: seq<seq<Byte>>, width: nat, height: nat, invert: bool)
    requires buffer.Length == height * RowStride(width)
    requires |lines| == height
    requires forall y :: 0 <= y < height ==> |lines[y]| == width
    modifies buffer
    ensures forall y, x :: 0 <= y < height && 0 <= x < RowStride(width) ==>
      Offset(RowStride(width), y, x) < buffer.Length &&
      buffer[Offset(RowStride(width), y, x)]
        == if x < width then StencilByte(lines[y][x], invert) else old(buffer[Offset(RowStride(width), y, x)])
  {
    var rowStride := RowStride(width);
    var y := 0;
    var rowStart := 0;
    while y < height
      invariant 0 <= y <= height
      invariant rowStart == y * rowStride
      invariant rowStart <= buffer.Length
      invariant forall yy, xx :: 0 <= yy < y && 0 <= xx < rowStride ==>
        Offset(rowStride, yy, xx) < rowStart &&
        buffer[Offset(rowStride, yy, xx)]
          == if xx < width then StencilByte(lines[yy][xx], invert) else old(buffer[Offset(rowStride, yy, xx)])
      invariant forall i :: rowStart <= i < buffer.Length ==> buffer[i] == old(buffer[i])
    {
      RowFits(y, height, rowStride);
      FillStencilRow(buffer, lines[y], rowStart, invert);
      forall yy, xx | 0 <= yy <= y && 0 <= xx < rowStride
        ensures Offset(rowStride, yy, xx) < rowStart + rowStride
        ensures buffer[Offset(rowStride, yy, xx)]
          == if xx < width then StencilByte(lines[yy][xx], invert) else old(buffer[Offset(rowStride, yy, xx)])
      {
        if yy == y {
          assert Offset(rowStride, yy, xx) == rowStart + xx;
        }
      }
      y := y + 1;
      rowStart := rowStart + rowStride;
    }
  }

  /**
   * One row of `FillStencil`: the bytes from `start` on receive the stencil
   * bytes of the row's samples; nothing else changes.
   */
  method FillStencilRow(buffer: array<Byte>, pix: seq<Byte>, start: nat, invert: bool)
    requires start + |pix| <= buffer.Length
    modifies buffer
    ensures forall i :: 0 <= i < buffer.Length && !(start <= i < start + |pix|) ==> buffer[i] == old(buffer[i])
    ensures forall i :: start <= i < start + |pix| ==> buffer[i] == StencilByte(pix[i - start], invert)
  {
    var invertBit := InvertBit(invert);
    var dest := start;
    var x := 0;
    while x < |pix|
      invariant 0 <= x <= |pix|
      invariant dest == start + x
      invariant forall i :: 0 <= i < buffer.Length && !(start <= i < dest) ==> buffer[i] == old(buffer[i])
      invariant forall i :: start <= i < dest ==> buffer[i] == StencilByte(pix[i - start], invert)
    {
      if (pix[x] as bv8) ^ invertBit != 0 {
        buffer[dest] := 0;
      } else {
        buffer[dest] := 255;
      }
      dest := dest + 1;
      x := x + 1;
    }
  }

  // ---------------------------------------------------------------------
  // Colour images

  /**
   * The colour spaces whose samples are already device RGB: DeviceRGB, or
   * ICCBased with a DeviceRGB alternate (no colour correction is applied).
   */
  predicate IsIdentityTransform(space: ColorSpaceMode)
  {
    space == DeviceRGB || (space.ICCBased? && space.alt == DeviceRGB)
  }

  /** Every component of `pix` lies in its colour-key range `[mask[2i], mask[2i+1]]`. */
  predicate KeyMatches(pix: seq<Byte>, maskColors: seq<int>)
    requires |maskColors| == 2 * |pix|
  {
    forall i :: 0 <= i < |pix| ==> maskColors[2 * i] <= pix[i] <= maskColors[2 * i + 1]
  }

  /**
   * The alpha of one pixel: transparent only when colour-key ranges are
   * given and every component lies in its range, opaque otherwise.
   */
  function Alpha(pix: seq<Byte>, maskColors: Option<seq<int>>): Byte
    requires maskColors.Some? ==> |maskColors.value| == 2 * |pix|
  {
    if maskColors.Some? && KeyMatches(pix, maskColors.value) then 0 else 255
  }

  /**
   * The colour-key scan of `drawImage`: it stops at the first component
   * outside its range.
   */
  method ColorKeyAlpha(pix: seq<Byte>, maskColors: Option<seq<int>>) returns (alpha: Byte)
    requires maskColors.Some? ==> |maskColors.value| == 2 * |pix|
    ensures alpha == Alpha(pix, maskColors)
  {
    if maskColors.Some? {
      var mask := maskColors.value;
      alpha := 0;
      var i := 0;
      while i < |pix|
        invariant 0 <= i <= |pix|
        invariant alpha == 0
        invariant forall k :: 0 <= k < i ==> mask[2 * k] <= pix[k] <= mask[2 * k + 1]
      {
        if pix[i] < mask[2 * i] || pix[i] > mask[2 * i + 1] {
          alpha := 255;
          break;
        }
        i := i + 1;
      }
    } else {
      alpha := 255;
    }
  }

  /**
   * The four bytes of one pixel, in B, G, R, A order: the samples themselves,
   * reversed, for device RGB; otherwise the colour map's rounded conversion.
   */
  function PixelBytes(pix: seq<Byte>, colorMap: ColorMap, alpha: Byte): (bytes: seq<Byte>)
    requires IsIdentityTransform(colorMap.space) ==> |pix| >= 3
    ensures |bytes| == 4 && bytes[3] == alpha
  {
    if IsIdentityTransform(colorMap.space) then [pix[2], pix[1], pix[0], alpha]
    else
      var rgb := colorMap.toRgb(pix);
      [rgb.b, rgb.g, rgb.r, alpha]
  }

  /** The decoded samples: `height` rows of `width` pixels of `nComps` components each. */
  ghost predicate ImageShape(pixels: seq<seq<seq<Byte>>>, width: nat, height: nat, nComps: nat)
  {
    |pixels| == height &&
    (forall y :: 0 <= y < height ==> |pixels[y]| == width) &&
    (forall y, x :: 0 <= y < height && 0 <= x < width ==> |pixels[y][x]| == nComps)
  }

  /** The address of byte `c` of pixel `x` in row `y` of a colour buffer of `width` pixels per row. */
  function ColorOffset(width: nat, y: nat, x: nat, c: nat): nat
  {
    y * (4 * width) + 4 * x + c
  }

  /**
   * The pixel addresses take up the whole colour buffer: every byte of a
   * `width * height * 4` buffer is byte `c` of some pixel `(x, y)`.
   */
  lemma ColorOffsetsCover(width: nat, height: nat, i: nat)
    requires i < width * height * 4
    ensures exists y, x, c :: 0 <= y < height && 0 <= x < width && 0 <= c < 4 && i == ColorOffset(width, y, x, c)
  {
    WidthPositive(width, height, i);
    var rowBytes := 4 * width;
    var y, r := DivRow(i, rowBytes);
    if y >= height {
      MulMono(height, y, rowBytes);
      assert false;
    }
    var x, c := r / 4, r % 4;
    assert ColorOffset(width, y, x, c) == i;
  }

  /** Distinct pixel bytes have distinct addresses: no write lands on another pixel's byte. */
  lemma ColorOffsetsDistinct(width: nat, y: nat, x: nat, c: nat, y': nat, x': nat, c': nat)
    requires x < width && c < 4 && x' < width && c' < 4
    requires ColorOffset(width, y, x, c) == ColorOffset(width, y', x', c')
    ensures y == y' && x == x' && c == c'
  {
    var rowBytes := 4 * width;
    if y != y' {
      var lo, hi := if y < y' then y else y', if y < y' then y' else y;
      MulMono(lo + 1, hi, rowBytes);
      MulSucc(lo, rowBytes);
      assert false;
    }
  }

  /** Splits an address into a row number and an offset within the row. */
  lemma DivRow(i: nat, rowBytes: nat) returns (y: nat, r: nat)
    requires rowBytes > 0
    ensures i == y * rowBytes + r && r < rowBytes
  {
    y, r := i / rowBytes, i % rowBytes;
  }

  /** A buffer with a byte in it has pixels in each row. */
  lemma WidthPositive(width: nat, height: nat, i: nat)
    requires i < width * height * 4
    ensures width > 0
  {
  }

  lemma MulMono(a: nat, b: nat, k: nat)
    requires a <= b
    ensures a * k <= b * k
  {
  }

  lemma MulSucc(a: nat, k: nat)
    ensures (a + 1) * k == a * k + k
  {
  }

  /**
   * The fill loop of `drawImage`: byte `c` of pixel `(x, y)` is byte `c` of
   * that pixel's B, G, R, A quadruple (`ColorOffsetsCover` shows these
   * addresses take up the whole buffer).
   */
  method FillColorImage(buffer: array<Byte>, pixels: seq<seq<seq<Byte>>>, width: nat, height: nat,
                        colorMap: ColorMap, maskColors: Option<seq<int>>)
    requires buffer.Length == width * height * 4
    requires ImageShape(pixels, width, height, colorMap.nComps)
    requires IsIdentityTransform(colorMap.space) ==> colorMap.nComps >= 3
    requires maskColors.Some? ==> |maskColors.value| == 2 * colorMap.nComps
    modifies buffer
    ensures forall y, x, c :: 0 <= y < height && 0 <= x < width && 0 <= c < 4 ==>
      ColorOffset(width, y, x, c) < buffer.Length &&
      buffer[ColorOffset(width, y, x, c)]
        == PixelBytes(pixels[y][x], colorMap, Alpha(pixels[y][x], maskColors))[c]
  {
    assert buffer.Length == height * (4 * width);
    var y := 0;
    var rowStart := 0;
    while y < height
      invariant 0 <= y <= height
      invariant rowStart == y * (4 * width)
      invariant rowStart <= buffer.Length
      invariant forall yy, xx, c :: 0 <= yy < y && 0 <= xx < width && 0 <= c < 4 ==>
        ColorOffset(width, yy, xx, c) < rowStart &&
        buffer[ColorOffset(width, yy, xx, c)]
          == PixelBytes(pixels[yy][xx], colorMap, Alpha(pixels[yy][xx], maskColors))[c]
    {
      RowFits(y, height, 4 * width);
      FillColorRow(buffer, pixels[y], width, y, colorMap, maskColors);
      y := y + 1;
      rowStart := rowStart + 4 * width;
    }
  }


  /**
   * The loop body of `drawImage` for one pixel: its alpha from the colour
   * key, then its B, G, R bytes, copied for device RGB and converted
   * otherwise.
   */
  method ConvertPixel(pix: seq<Byte>, colorMap: ColorMap, maskColors: Option<seq<int>>, identity: bool)
    returns (bytes: seq<Byte>)
    requires identity == IsIdentityTransform(colorMap.space)
    requires |pix| == colorMap.nComps
    requires identity ==> colorMap.nComps >= 3
    requires maskColors.Some? ==> |maskColors.value| == 2 * colorMap.nComps
    ensures bytes == PixelBytes(pix, colorMap, Alpha(pix, maskColors))
  {
    var alpha := ColorKeyAlpha(pix, maskColors);
    var b, g, r;
    if identity {
      b, g, r := pix[2], pix[1], pix[0];
    } else {
      var rgb := colorMap.toRgb(pix);
      b, g, r := rgb.b, rgb.g, rgb.r;
    }
    bytes := [b, g, r, alpha];
  }

  /** Stores the four bytes of one pixel from `dest` on; nothing else changes. */
  method WritePixel(buffer: array<Byte>, dest: nat, bytes: seq<Byte>)
    requires |bytes| == 4 && dest + 4 <= buffer.Length
    modifies buffer
    ensures forall i :: 0 <= i < buffer.Length && !(dest <= i < dest + 4) ==> buffer[i] == old(buffer[i])
    ensures forall c :: 0 <= c < 4 ==> buffer[dest + c] == bytes[c]
  {
    buffer[dest] := bytes[0];
    buffer[dest + 1] := bytes[1];
    buffer[dest + 2] := bytes[2];
    buffer[dest + 3] := bytes[3];
  }

  /**
   * One row of `FillColorImage`: the four bytes of each pixel of row `y`, at
   * their offsets; nothing outside the row changes.
   */
  method FillColorRow(buffer: array<Byte>, row: seq<seq<Byte>>, width: nat, y: nat,
                      colorMap: ColorMap, maskColors: Option<seq<int>>)
    requires |row| == width
    requires y * (4 * width) + 4 * width <= buffer.Length
    requires forall x :: 0 <= x < width ==> |row[x]| == colorMap.nComps
    requires IsIdentityTransform(colorMap.space) ==> colorMap.nComps >= 3
    requires maskColors.Some? ==> |maskColors.value| == 2 * colorMap.nComps
    modifies buffer
    ensures forall i :: 0 <= i < buffer.Length && !(y * (4 * width) <= i < y * (4 * width) + 4 * width) ==>
      buffer[i] == old(buffer[i])
    ensures forall x, c :: 0 <= x < width && 0 <= c < 4 ==>
      buffer[ColorOffset(width, y, x, c)] == PixelBytes(row[x], colorMap, Alpha(row[x], maskColors))[c]
  {
    var identity := IsIdentityTransform(colorMap.space);
    var rowStart := y * (4 * width);
    var dest := rowStart;
    var x := 0;
    while x < width
      invariant 0 <= x <= width
      invariant dest == rowStart + 4 * x
      invariant forall i :: 0 <= i < buffer.Length && !(rowStart <= i < dest) ==> buffer[i] == old(buffer[i])
      invariant forall xx, c :: 0 <= xx < x && 0 <= c < 4 ==>
        buffer[ColorOffset(width, y, xx, c)] == PixelBytes(row[xx], colorMap, Alpha(row[xx], maskColors))[c]
    {
      var bytes := ConvertPixel(row[x], colorMap, maskColors, identity);
      WritePixel(buffer, dest, bytes);
      forall c | 0 <= c < 4
        ensures buffer[ColorOffset(width, y, x, c)] == PixelBytes(row[x], colorMap, Alpha(row[x], maskColors))[c]
      {
        assert ColorOffset(width, y, x, c) == dest + c;
      }
      dest := dest + 4;
      x := x + 1;
    }
  }

}

=== FILE: line_style.dfy ===
/**
 * Stroke-style translation: the line join and line cap codes of the
 * graphics state (section 8.4.3 of ISO 32000-1) mapped onto the surface's
 * enumerations, and the per-entry transformation of the dash array.
 */
module LineStyle {
  import opened Wrappers
  import opened Surface

  /** The code ISO 32000-1 (section 8.4.3.4) gives each line join style. */
  function JoinCode(join: LineJoin): int
  {
    match join
    case JoinMiter => 0
    case JoinRound => 1
    case JoinBevel => 2
  }

  /** The code ISO 32000-1 (section 8.4.3.3) gives each line cap style. */
  function CapCode(cap: LineCap): int
  {
    match cap
    case CapButt => 0
    case CapRound => 1
    case CapSquare => 2
  }

  /**
   * The switch of `updateLineJoin`: codes 0, 1 and 2 select a join; any
   * other code selects nothing and the surface's join is left as it was.
   */
  function JoinForCode(code: int): (join: Option<LineJoin>)
    ensures join.Some? <==> 0 <= code <= 2
    ensures join.Some? ==> JoinCode(join.value) == code
  {
    if code == 0 then Some(JoinMiter)
    else if code == 1 then Some(JoinRound)
    else if code == 2 then Some(JoinBevel)
    else None
  }

  /** The switch of `updateLineCap`, with the same shape as `JoinForCode`. */
  function CapForCode(code: int): (cap: Option<LineCap>)
    ensures cap.Some? <==> 0 <= code <= 2
    ensures cap.Some? ==> CapCode(cap.value) == code
  {
    if code == 0 then Some(CapButt)
    else if code == 1 then Some(CapRound)
    else if code == 2 then Some(CapSquare)
    else None
  }

  /** Every join style is reached, from exactly its own code. */
  lemma JoinForCodeInverts(join: LineJoin)
    ensures JoinForCode(JoinCode(join)) == Some(join)
  {
  }

  /** Every cap style is reached, from exactly its own code. */
  lemma CapForCodeInverts(cap: LineCap)
    ensures CapForCode(CapCode(cap)) == Some(cap)
  {
  }

  /**
   * The loop of `updateLineDash`: a fresh array holding every dash length
   * transformed to device units, entry by entry and in order.
   */
  method TransformDash(dashes: seq<real>, transformWidth: real -> real) returns (transformed: array<real>)
    ensures fresh(transformed) && transformed.Length == |dashes|
    ensures forall i :: 0 <= i < |dashes| ==> transformed[i] == transformWidth(dashes[i])
  {
    transformed := new real[|dashes|];
    for i := 0 to |dashes|
      invariant forall k :: 0 <= k < i ==> transformed[k] == transformWidth(dashes[k])
    {
      transformed[i] := transformWidth(dashes[i]);
    }
  }
}

=== FILE: path_geometry.dfy ===
/**
 * The path walker of `doPath`: each subpath of the interpreter's path
 * becomes a move-to, a line-to per line vertex, a curve-to per run of three
 * curve points, and a close when the subpath is closed.  Points are mapped
 * to device space by the state's transform and, when grid snapping is
 * requested, rounded to whole device units.
 */
module PathGeometry {
  import opened Surface
  import opened Graphics

  /** C's `round`: to the nearest integer, halves away from zero. */
  function Round(v: real): (r: int)
    ensures -0.5 <= r as real - v <= 0.5
    ensures v >= 0.0 ==> r >= 0
    ensures v >= 0.0 && v - v.Floor as real == 0.5 ==> r == v.Floor + 1
    ensures v < 0.0 && v - v.Floor as real == 0.5 ==> r == v.Floor
  {
    if v >= 0.0 then (v + 0.5).Floor else -((-v + 0.5).Floor)
  }

  function RoundPt(p: Pt): Pt
  {
    Pt(Round(p.x) as real, Round(p.y) as real)
  }

  /** A device point on the integer grid. */
  predicate OnGrid(p: Pt)
  {
    p.x == p.x.Floor as real && p.y == p.y.Floor as real
  }

  /** The device point emitted for `p`: transformed, then rounded when `snap` holds. */
  function Device(xf: Pt -> Pt, p: Pt, snap: bool): Pt
  {
    if snap then RoundPt(xf(p)) else xf(p)
  }

  /** The number of points the command at point `j` consumes: three for a curve run, else one. */
  function StepOf(sp: Subpath, j: nat): nat
    requires j < |sp.curve|
  {
    if sp.curve[j] then 3 else 1
  }

  /**
   * The command for the point at `j`: a curve-to through it and the next two
   * points when it starts a curve run, else a line-to.  Line vertices are
   * rounded when `snap` holds, curve points when `snapCurves` holds: the
   * code as written rounds curve points BEFORE transforming them, so the
   * rounding is lost and it emits them as if `snapCurves` were false.
   */
  function PointOp(sp: Subpath, xf: Pt -> Pt, snap: bool, snapCurves: bool, j: nat): Op
    requires |sp.pts| == |sp.curve| && j < |sp.pts| && (sp.curve[j] ==> j + 2 < |sp.pts|)
  {
    if sp.curve[j] then
      CurveTo(Device(xf, sp.pts[j], snapCurves), Device(xf, sp.pts[j + 1], snapCurves),
              Device(xf, sp.pts[j + 2], snapCurves))
    else
      LineTo(Device(xf, sp.pts[j], snap))
  }

  /** The commands for the points of `sp` from index `j` on. */
  function BodyCommands(sp: Subpath, xf: Pt -> Pt, snap: bool, snapCurves: bool, j: nat): seq<Op>
    requires |sp.pts| == |sp.curve| && RunsComplete(sp.curve, j)
    decreases |sp.pts| - j
  {
    if j >= |sp.pts| then []
    else [PointOp(sp, xf, snap, snapCurves, j)] + BodyCommands(sp, xf, snap, snapCurves, j + StepOf(sp, j))
  }

  /** The commands for one subpath: nothing for an empty one. */
  function SubpathCommands(sp: Subpath, xf: Pt -> Pt, snap: bool, snapCurves: bool): seq<Op>
    requires WellFormedSubpath(sp)
  {
    if |sp.pts| == 0 then []
    else
      [MoveTo(Device(xf, sp.pts[0], snap))]
      + BodyCommands(sp, xf, snap, snapCurves, 1)
      + (if sp.closed then [ClosePath] else [])
  }

  /** The commands for a whole path, subpath after subpath. */
  function PathCommands(path: seq<Subpath>, xf: Pt -> Pt, snap: bool, snapCurves: bool): seq<Op>
    requires WellFormedPath(path)
  {
    if |path| == 0 then []
    else PathCommands(path[..|path| - 1], xf, snap, snapCurves)
         + SubpathCommands(path[|path| - 1], xf, snap, snapCurves)
  }

  /**
   * The walk of `doPath` with every emitted point snapped when `snapToGrid`
   * holds (the corrected behaviour; see `CurveSnapDefect` for the code as
   * written).
   */
  method EmitPath(path: seq<Subpath>, xf: Pt -> Pt, snapToGrid: bool) returns (cmds: seq<Op>)
    requires WellFormedPath(path)
    ensures cmds == PathCommands(path, xf, snapToGrid, snapToGrid)
  {
    cmds := [];
    var i := 0;
    while i < |path|
      invariant 0 <= i <= |path|
      invariant cmds == PathCommands(path[..i], xf, snapToGrid, snapToGrid)
    {
      var sub := EmitSubpath(path[i], xf, snapToGrid);
      PathPrefixStep(path, xf, snapToGrid, i);
      cmds := cmds + sub;
      i := i + 1;
    }
    assert path[..|path|] == path;
  }

  /** The commands for the first `i + 1` subpaths extend those for the first `i`. */
  lemma {:induction false} PathPrefixStep(path: seq<Subpath>, xf: Pt -> Pt, snap: bool, i: nat)
    requires WellFormedPath(path) && i < |path|
    ensures WellFormedPath(path[..i]) && WellFormedPath(path[..i + 1]) && WellFormedSubpath(path[i])
    ensures PathCommands(path[..i + 1], xf, snap, snap)
            == PathCommands(path[..i], xf, snap, snap) + SubpathCommands(path[i], xf, snap, snap)
  {
    assert path[..i + 1][..i] == path[..i];
  }

  /** One iteration of the walk of `doPath`: the commands for one subpath. */
  method EmitSubpath(sp: Subpath, xf: Pt -> Pt, snapToGrid: bool) returns (cmds: seq<Op>)
    requires WellFormedSubpath(sp)
    ensures cmds == SubpathCommands(sp, xf, snapToGrid, snapToGrid)
  {
    cmds := [];
    if |sp.pts| > 0 {
      var p1 := xf(sp.pts[0]);
      if snapToGrid {
        p1 := RoundPt(p1);
      }
      cmds := [MoveTo(p1)];
      var j := 1;
      while j < |sp.pts|
        invariant 1 <= j <= |sp.pts|
        invariant RunsComplete(sp.curve, j)
        invariant cmds + BodyCommands(sp, xf, snapToGrid, snapToGrid, j)
                  == [MoveTo(p1)] + BodyCommands(sp, xf, snapToGrid, snapToGrid, 1)
        decreases |sp.pts| - j
      {
        var next: Op;
        var step: nat;
        if sp.curve[j] {
          var c1 := xf(sp.pts[j]);
          var c2 := xf(sp.pts[j + 1]);
          var c3 := xf(sp.pts[j + 2]);
          if snapToGrid {
            c1, c2, c3 := RoundPt(c1), RoundPt(c2), RoundPt(c3);
          }
          next, step := CurveTo(c1, c2, c3), 3;
          assert next == PointOp(sp, xf, snapToGrid, snapToGrid, j);
        } else {
          var p := xf(sp.pts[j]);
          if snapToGrid {
            p := RoundPt(p);
          }
          next, step := LineTo(p), 1;
          assert next == PointOp(sp, xf, snapToGrid, snapToGrid, j);
        }
        BodyStep(sp, xf, snapToGrid, j, next, step, cmds, [MoveTo(p1)] + BodyCommands(sp, xf, snapToGrid, snapToGrid, 1));
        cmds := cmds + [next];
        j := j + step;
      }
      if sp.closed {
        cmds := cmds + [ClosePath];
      }
    }
  }

  /**
   * The loop step of `EmitSubpath`: the command for the point at `j`, and the
   * number of points it consumes, extend the commands emitted so far.
   */
  lemma {:induction false} BodyStep(sp: Subpath, xf: Pt -> Pt, snap: bool, j: nat, next: Op, step: nat, done: seq<Op>, whole: seq<Op>)
    requires |sp.pts| == |sp.curve| && RunsComplete(sp.curve, j) && j < |sp.pts|
    requires next == PointOp(sp, xf, snap, snap, j) && step == StepOf(sp, j)
    requires done + BodyCommands(sp, xf, snap, snap, j) == whole
    ensures RunsComplete(sp.curve, j + step)
    ensures (done + [next]) + BodyCommands(sp, xf, snap, snap, j + step) == whole
  {
    var rest := BodyCommands(sp, xf, snap, snap, j + step);
    assert BodyCommands(sp, xf, snap, snap, j) == [next] + rest;
    assert (done + [next]) + rest == done + ([next] + rest);
  }

  // ---------------------------------------------------------------------
  // Shape of the emitted commands

  datatype PathKind = Move | Line | Curve | Close | Other

  function KindOf(op: Op): PathKind
  {
    if op.MoveTo? then Move
    else if op.LineTo? then Line
    else if op.CurveTo? then Curve
    else if op.ClosePath? then Close
    else Other
  }

  /** How many commands of kind `k` a command sequence holds. */
  function Count(cmds: seq<Op>, k: PathKind): nat
  {
    if cmds == [] then 0
    else (if KindOf(cmds[0]) == k then 1 else 0) + Count(cmds[1..], k)
  }

  lemma CountSingle(op: Op)
    ensures forall k :: Count([op], k) == if KindOf(op) == k then 1 else 0
  {
    assert [op][1..] == [];
  }

  lemma {:induction false} CountAppend(a: seq<Op>, b: seq<Op>, k: PathKind)
    ensures Count(a + b, k) == Count(a, k) + Count(b, k)
  {
    if a != [] {
      assert (a + b)[0] == a[0];
      assert (a + b)[1..] == a[1..] + b;
      CountAppend(a[1..], b, k);
    } else {
      assert a + b == b;
    }
  }

  /**
   * The body of a subpath from point `j`: no move-to and no close, and its
   * line-tos and curve-tos account for its points, one point per line-to
   * and three per curve-to.
   */
  lemma {:induction false} BodyShape(sp: Subpath, xf: Pt -> Pt, snap: bool, snapCurves: bool, j: nat)
    requires |sp.pts| == |sp.curve| && RunsComplete(sp.curve, j) && j <= |sp.pts|
    ensures var body := BodyCommands(sp, xf, snap, snapCurves, j);
      Count(body, Move) == 0 && Count(body, Close) == 0 &&
      Count(body, Line) + 3 * Count(body, Curve) == |sp.pts| - j
    decreases |sp.pts| - j
  {
    if j < |sp.pts| {
      var op := PointOp(sp, xf, snap, snapCurves, j);
      var rest := BodyCommands(sp, xf, snap, snapCurves, j + StepOf(sp, j));
      assert KindOf(op) == if sp.curve[j] then Curve else Line;
      BodyShape(sp, xf, snap, snapCurves, j + StepOf(sp, j));
      CountSingle(op);
      forall k: PathKind ensures Count([op] + rest, k) == Count([op], k) + Count(rest, k) {
        CountAppend([op], rest, k);
      }
    }
  }

  /** The curve runs the walk meets from point `j` on: the visited points whose curve flag is set. */
  ghost function CurveRuns(curve: seq<bool>, j: nat): nat
    decreases |curve| - j
  {
    if j >= |curve| then 0
    else if curve[j] then 1 + CurveRuns(curve, j + 3)
    else CurveRuns(curve, j + 1)
  }

  /** The line points the walk meets from point `j` on: the visited points whose curve flag is clear. */
  ghost function LinePoints(curve: seq<bool>, j: nat): nat
    decreases |curve| - j
  {
    if j >= |curve| then 0
    else if curve[j] then LinePoints(curve, j + 3)
    else 1 + LinePoints(curve, j + 1)
  }

  /**
   * The body from point `j` has one curve-to per curve run and one line-to
   * per line point the walk visits.
   */
  lemma {:induction false} BodyRuns(sp: Subpath, xf: Pt -> Pt, snap: bool, snapCurves: bool, j: nat)
    requires |sp.pts| == |sp.curve| && RunsComplete(sp.curve, j) && j <= |sp.pts|
    ensures var body := BodyCommands(sp, xf, snap, snapCurves, j);
      Count(body, Curve) == CurveRuns(sp.curve, j) && Count(body, Line) == LinePoints(sp.curve, j)
    decreases |sp.pts| - j
  {
    if j < |sp.pts| {
      var step := StepOf(sp, j);
      var op := PointOp(sp, xf, snap, snapCurves, j);
      var rest := BodyCommands(sp, xf, snap, snapCurves, j + step);
      assert BodyCommands(sp, xf, snap, snapCurves, j) == [op] + rest;
      assert KindOf(op) == if sp.curve[j] then Curve else Line;
      BodyRuns(sp, xf, snap, snapCurves, j + step);
      CountSingle(op);
      CountAppend([op], rest, Curve);
      CountAppend([op], rest, Line);
    }
  }

  /**
   * The command structure of one subpath: an empty subpath emits nothing;
   * otherwise exactly one move-to, first; line-tos and curve-tos that
   * consume the remaining points one and three at a time; and a close,
   * last, exactly when the subpath is closed.
   */
  lemma {:induction false} SubpathShape(sp: Subpath, xf: Pt -> Pt, snap: bool, snapCurves: bool)
    requires WellFormedSubpath(sp)
    ensures var cmds := SubpathCommands(sp, xf, snap, snapCurves);
      (|sp.pts| == 0 ==> cmds == []) &&
      (|sp.pts| > 0 ==>
        cmds[0].MoveTo? && Count(cmds, Move) == 1 &&
        Count(cmds, Line) + 3 * Count(cmds, Curve) == |sp.pts| - 1 &&
        Count(cmds, Curve) == CurveRuns(sp.curve, 1) && Count(cmds, Line) == LinePoints(sp.curve, 1) &&
        Count(cmds, Close) == (if sp.closed then 1 else 0) &&
        (sp.closed <==> cmds[|cmds| - 1] == ClosePath))
  {
    if |sp.pts| > 0 {
      var body := BodyCommands(sp, xf, snap, snapCurves, 1);
      BodyShape(sp, xf, snap, snapCurves, 1);
      BodyRuns(sp, xf, snap, snapCurves, 1);
      FrameShape(MoveTo(Device(xf, sp.pts[0], snap)), body, sp.closed);
    }
  }

  /**
   * A move-to, then commands with no move-to and no close-path, then a
   * close-path exactly when `closed`: one move-to, the body's lines and
   * curves, and a close-path that is the last command exactly when `closed`.
   */
  lemma {:induction false} FrameShape(move: Op, body: seq<Op>, closed: bool)
    requires move.MoveTo? && Count(body, Move) == 0 && Count(body, Close) == 0
    ensures var cmds := [move] + body + (if closed then [ClosePath] else []);
      cmds[0].MoveTo? && Count(cmds, Move) == 1 &&
      Count(cmds, Line) == Count(body, Line) && Count(cmds, Curve) == Count(body, Curve) &&
      Count(cmds, Close) == (if closed then 1 else 0) &&
      (closed <==> cmds[|cmds| - 1] == ClosePath)
  {
    var tail: seq<Op> := if closed then [ClosePath] else [];
    var cmds := [move] + body + tail;
    CountSingle(move);
    if closed {
      CountSingle(ClosePath);
    }
    forall k: PathKind ensures Count(cmds, k) == Count([move], k) + Count(body, k) + Count(tail, k) {
      CountAppend([move], body, k);
      CountAppend([move] + body, tail, k);
    }
    if !closed && body != [] {
      assert cmds[|cmds| - 1] == body[|body| - 1];
      assert body[|body| - 1] in body;
      if body[|body| - 1] == ClosePath {
        CountMember(body, ClosePath);
      }
    }
  }


  /** An element of a command sequence is counted under its own kind. */
  lemma {:induction false} CountMember(cmds: seq<Op>, op: Op)
    requires op in cmds
    ensures Count(cmds, KindOf(op)) >= 1
  {
    if cmds[0] != op {
      CountMember(cmds[1..], op);
    }
  }

  // ---------------------------------------------------------------------
  // The emitted vertices

  /** The points a command sequence visits, in order (three per curve-to). */
  function Vertices(cmds: seq<Op>): seq<Pt>
  {
    if cmds == [] then [] else OpVertices(cmds[0]) + Vertices(cmds[1..])
  }

  function OpVertices(op: Op): seq<Pt>
  {
    if op.MoveTo? || op.LineTo? then [op.p]
    else if op.CurveTo? then [op.c1, op.c2, op.c3]
    else []
  }

  lemma {:induction false} VerticesAppend(a: seq<Op>, b: seq<Op>)
    ensures Vertices(a + b) == Vertices(a) + Vertices(b)
  {
    if a != [] {
      assert (a + b)[0] == a[0];
      assert (a + b)[1..] == a[1..] + b;
      VerticesAppend(a[1..], b);
    } else {
      assert a + b == b;
    }
  }

  /** Every point of `ps` mapped to device space, rounded when `snap` holds. */
  function DevicePoints(xf: Pt -> Pt, ps: seq<Pt>, snap: bool): (ds: seq<Pt>)
    ensures |ds| == |ps|
  {
    if ps == [] then [] else [Device(xf, ps[0], snap)] + DevicePoints(xf, ps[1..], snap)
  }

  /** Point `i` of the device points is point `i` of `ps`, mapped. */
  lemma {:induction false} DevicePointsAt(xf: Pt -> Pt, ps: seq<Pt>, snap: bool, i: nat)
    requires i < |ps|
    ensures DevicePoints(xf, ps, snap)[i] == Device(xf, ps[i], snap)
  {
    if i > 0 {
      DevicePointsAt(xf, ps[1..], snap, i - 1);
    }
  }

  /** All the points of a path, subpath after subpath. */
  function AllPoints(path: seq<Subpath>): seq<Pt>
  {
    if |path| == 0 then [] else AllPoints(path[..|path| - 1]) + path[|path| - 1].pts
  }

  /** The vertices of a subpath body from point `j` are its points from `j` on, mapped. */
  lemma {:induction false} BodyVertices(sp: Subpath, xf: Pt -> Pt, snap: bool, j: nat)
    requires |sp.pts| == |sp.curve| && RunsComplete(sp.curve, j) && j <= |sp.pts|
    ensures Vertices(BodyCommands(sp, xf, snap, snap, j)) == DevicePoints(xf, sp.pts[j..], snap)
    decreases |sp.pts| - j
  {
    if j < |sp.pts| {
      var step := StepOf(sp, j);
      var op := PointOp(sp, xf, snap, snap, j);
      var rest := BodyCommands(sp, xf, snap, snap, j + step);
      BodyVertices(sp, xf, snap, j + step);
      PointOpVertices(sp, xf, snap, j);
      VerticesStep(xf, snap, op, rest, sp.pts[j..j + step], sp.pts[j + step..]);
      assert sp.pts[j..] == sp.pts[j..j + step] + sp.pts[j + step..];
    }
  }

  /** A command followed by more commands: their points are the two point lists joined. */
  lemma {:induction false} VerticesStep(xf: Pt -> Pt, snap: bool, op: Op, rest: seq<Op>, a: seq<Pt>, b: seq<Pt>)
    requires OpVertices(op) == DevicePoints(xf, a, snap)
    requires Vertices(rest) == DevicePoints(xf, b, snap)
    ensures Vertices([op] + rest) == DevicePoints(xf, a + b, snap)
  {
    VerticesAppend([op], rest);
    assert Vertices([op]) == OpVertices(op) by {
      assert [op][1..] == [];
    }
    DevicePointsAppend(xf, a, b, snap);
  }

  /** The points of the command at `j` are the points it consumes, mapped to device space. */
  lemma PointOpVertices(sp: Subpath, xf: Pt -> Pt, snap: bool, j: nat)
    requires |sp.pts| == |sp.curve| && j < |sp.pts| && (sp.curve[j] ==> j + 2 < |sp.pts|)
    ensures j + StepOf(sp, j) <= |sp.pts|
    ensures OpVertices(PointOp(sp, xf, snap, snap, j)) == DevicePoints(xf, sp.pts[j..j + StepOf(sp, j)], snap)
  {
    var ps := sp.pts[j..j + StepOf(sp, j)];
    forall i | 0 <= i < |ps| ensures DevicePoints(xf, ps, snap)[i] == Device(xf, ps[i], snap) {
      DevicePointsAt(xf, ps, snap, i);
    }
  }

  lemma DevicePointsAppend(xf: Pt -> Pt, a: seq<Pt>, b: seq<Pt>, snap: bool)
    ensures DevicePoints(xf, a + b, snap) == DevicePoints(xf, a, snap) + DevicePoints(xf, b, snap)
  {
    var l, r := DevicePoints(xf, a + b, snap), DevicePoints(xf, a, snap) + DevicePoints(xf, b, snap);
    assert |l| == |r|;
    forall i | 0 <= i < |l| ensures l[i] == r[i] {
      DevicePointsAt(xf, a + b, snap, i);
      if i < |a| {
        DevicePointsAt(xf, a, snap, i);
        assert (a + b)[i] == a[i];
      } else {
        DevicePointsAt(xf, b, snap, i - |a|);
        assert (a + b)[i] == b[i - |a|];
      }
    }
  }

  /** The vertices of one subpath are its points mapped to device space, in order. */
  lemma {:induction false} SubpathVertices(sp: Subpath, xf: Pt -> Pt, snap: bool)
    requires WellFormedSubpath(sp)
    ensures Vertices(SubpathCommands(sp, xf, snap, snap)) == DevicePoints(xf, sp.pts, snap)
  {
    if |sp.pts| > 0 {
      var move := [MoveTo(Device(xf, sp.pts[0], snap))];
      var body := BodyCommands(sp, xf, snap, snap, 1);
      var tail: seq<Op> := if sp.closed then [ClosePath] else [];
      VerticesAppend(move, body);
      VerticesAppend(move + body, tail);
      assert Vertices(move) == [Device(xf, sp.pts[0], snap)] by { assert move[1..] == []; }
      assert Vertices(tail) == [] by { if sp.closed { assert tail[1..] == []; } }
      BodyVertices(sp, xf, snap, 1);
      assert sp.pts == [sp.pts[0]] + sp.pts[1..];
      DevicePointsAppend(xf, [sp.pts[0]], sp.pts[1..], snap);
    }
  }

  /**
   * When line and curve points are treated alike, the emitted vertices are
   * exactly the path's points, in order, each mapped to device space (and
   * rounded when snapping): no point is dropped, repeated or reordered.
   */
  lemma {:induction false} PathVertices(path: seq<Subpath>, xf: Pt -> Pt, snap: bool)
    requires WellFormedPath(path)
    ensures Vertices(PathCommands(path, xf, snap, snap)) == DevicePoints(xf, AllPoints(path), snap)
  {
    if |path| > 0 {
      var init := path[..|path| - 1];
      var sp := path[|path| - 1];
      PathVertices(init, xf, snap);
      VerticesAppend(PathCommands(init, xf, snap, snap), SubpathCommands(sp, xf, snap, snap));
      SubpathVertices(sp, xf, snap);
      DevicePointsAppend(xf, AllPoints(init), sp.pts, snap);
    }
  }

  /** With snapping applied to every point, every emitted vertex lies on the device grid. */
  lemma SnappedVerticesOnGrid(path: seq<Subpath>, xf: Pt -> Pt)
    requires WellFormedPath(path)
    ensures forall p :: p in Vertices(PathCommands(path, xf, true, true)) ==> OnGrid(p)
  {
    PathVertices(path, xf, true);
    var ps := AllPoints(path);
    forall p | p in DevicePoints(xf, ps, true) ensures OnGrid(p) {
      var i :| 0 <= i < |ps| && DevicePoints(xf, ps, true)[i] == p;
      DevicePointsAt(xf, ps, true, i);
    }
  }

  /** A path without curve runs: every point is a move-to or line-to vertex. */
  ghost predicate Straight(path: seq<Subpath>)
  {
    forall i, k :: 0 <= i < |path| && 0 <= k < |path[i].curve| ==> !path[i].curve[k]
  }

  /**
   * The curve-snapping defect touches only curves: on a path without curve
   * runs the code as written emits exactly the corrected commands.
   */
  lemma {:induction false} StraightPathUnaffected(path: seq<Subpath>, xf: Pt -> Pt, snap: bool)
    requires WellFormedPath(path) && Straight(path)
    ensures PathCommands(path, xf, snap, false) == PathCommands(path, xf, snap, snap)
  {
    if |path| > 0 {
      var init := path[..|path| - 1];
      var sp := path[|path| - 1];
      assert Straight(init);
      StraightPathUnaffected(init, xf, snap);
      if |sp.pts| > 0 {
        StraightBodyUnaffected(sp, xf, snap, 1);
      }
    }
  }

  lemma {:induction false} StraightBodyUnaffected(sp: Subpath, xf: Pt -> Pt, snap: bool, j: nat)
    requires |sp.pts| == |sp.curve| && RunsComplete(sp.curve, j)
    requires forall k :: 0 <= k < |sp.curve| ==> !sp.curve[k]
    ensures BodyCommands(sp, xf, snap, false, j) == BodyCommands(sp, xf, snap, snap, j)
    decreases |sp.pts| - j
  {
    if j < |sp.pts| {
      assert !sp.curve[j];
      StraightBodyUnaffected(sp, xf, snap, j + 1);
    }
  }

  /**
   * The code as written (`snapCurves` false) snaps the move-to and line-to
   * points but emits curve points unrounded: a subpath with one curve run
   * under the identity transform shows it.
   */
  lemma CurveSnapDefect()
    ensures var sp := Subpath([Pt(0.0, 0.0), Pt(0.25, 0.25), Pt(0.5, 0.5), Pt(1.25, 1.25)],
                              [false, true, true, false], false);
      var asWritten := PathCommands([sp], p => p, true, false);
      var corrected := PathCommands([sp], p => p, true, true);
      asWritten == [MoveTo(Pt(0.0, 0.0)), CurveTo(Pt(0.25, 0.25), Pt(0.5, 0.5), Pt(1.25, 1.25))] &&
      !OnGrid(asWritten[1].c1) &&
      corrected == [MoveTo(Pt(0.0, 0.0)), CurveTo(Pt(0.0, 0.0), Pt(1.0, 1.0), Pt(1.0, 1.0))]
  {
    var sp := Subpath([Pt(0.0, 0.0), Pt(0.25, 0.25), Pt(0.5, 0.5), Pt(1.25, 1.25)],
                      [false, true, true, false], false);
    assert RunsComplete(sp.curve, 4);
    assert RunsComplete(sp.curve, 1);
    assert [sp][..0] == [];
    assert Round(0.5) == 1;
  }
}

=== FILE: poppler_cache.dfy ===
/**
 * `PopplerCache`: a fixed-capacity key/item cache held in two parallel
 * arrays, `keys` and `items`, whose slots `0 .. lastValidCacheIndex` are
 * occupied.  Keys are compared only through the caller-supplied equality
 * (`PopplerCacheKey::operator==`), which the cache treats as opaque.  Slot 0
 * is the most recently used entry: a hit is moved there, and a new entry is
 * inserted there.
 */
module ObjectCache {
  import opened Wrappers

  /** An entry, as the pair `(keys[i], items[i])`. */
  type Entry<K, V> = (K, V)

  /**
   * The index of the first entry whose key compares equal to `key`, scanning
   * from slot 0; `None` when no stored key compares equal.
   */
  function Find<K, V>(entries: seq<Entry<K, V>>, eq: (K, K) -> bool, key: K): (r: Option<nat>)
    ensures r.Some? ==> r.value < |entries| && eq(entries[r.value].0, key)
    ensures r.Some? ==> forall j :: 0 <= j < r.value ==> !eq(entries[j].0, key)
    ensures r.None? ==> forall j :: 0 <= j < |entries| ==> !eq(entries[j].0, key)
  {
    if |entries| == 0 then None
    else if eq(entries[0].0, key) then Some(0)
    else
      match Find(entries[1..], eq, key)
      case None => None
      case Some(i) => Some(i + 1)
  }

  /** The entries with entry `i` promoted to slot 0 and the ones before it moved down by one. */
  function MoveToFront<T>(s: seq<T>, i: nat): seq<T>
    requires i < |s|
  {
    [s[i]] + s[..i] + s[i + 1..]
  }

  /** The entries with entry `i` removed (the victim of a put into a full cache). */
  function RemoveAt<T>(s: seq<T>, i: nat): (r: seq<T>)
    requires i < |s|
    ensures |r| == |s| - 1
  {
    s[..i] + s[i + 1..]
  }

  /** Promotion reorders the entries without adding or losing any. */
  lemma MoveToFrontPermutes<T>(s: seq<T>, i: nat)
    requires i < |s|
    ensures |MoveToFront(s, i)| == |s|
    ensures MoveToFront(s, i)[0] == s[i]
    ensures multiset(MoveToFront(s, i)) == multiset(s)
  {
    assert s == s[..i] + [s[i]] + s[i + 1..];
  }

  /**
   * Eviction drops exactly entry `i`: the remaining entries, with `s[i]`
   * added back, are the entries before the eviction, and their order is kept.
   */
  lemma RemoveAtDropsOne<T>(s: seq<T>, i: nat)
    requires i < |s|
    ensures multiset(RemoveAt(s, i)) + multiset{s[i]} == multiset(s)
    ensures forall j :: 0 <= j < i ==> RemoveAt(s, i)[j] == s[j]
    ensures forall j :: i <= j < |s| - 1 ==> RemoveAt(s, i)[j] == s[j + 1]
  {
    assert s == s[..i] + [s[i]] + s[i + 1..];
  }

  /**
   * A lookup does not hand its result over: the item it returns is still an
   * entry of the cache afterwards, under the key that matched.
   */
  lemma LookupKeepsItem<K, V>(entries: seq<Entry<K, V>>, eq: (K, K) -> bool, key: K)
    requires Find(entries, eq, key).Some?
    ensures var i := Find(entries, eq, key).value;
      entries[i] in MoveToFront(entries, i) && eq(MoveToFront(entries, i)[0].0, key)
  {
  }

  /** A second lookup of the same key finds it in slot 0 and reorders nothing. */
  lemma LookupTwice<K, V>(entries: seq<Entry<K, V>>, eq: (K, K) -> bool, key: K)
    requires Find(entries, eq, key).Some?
    ensures var moved := MoveToFront(entries, Find(entries, eq, key).value);
      Find(moved, eq, key) == Some(0) && MoveToFront(moved, 0) == moved
  {
    var moved := MoveToFront(entries, Find(entries, eq, key).value);
    assert [moved[0]] + moved[..0] + moved[1..] == moved;
  }

  /**
   * After a put, a lookup of any key the new key compares equal to finds
   * the new item in slot 0, whatever else the cache holds.
   */
  lemma PutThenLookup<K, V>(rest: seq<Entry<K, V>>, eq: (K, K) -> bool, key: K, item: V, probe: K)
    requires eq(key, probe)
    ensures Find([(key, item)] + rest, eq, probe) == Some(0)
    ensures ([(key, item)] + rest)[0].1 == item
  {
  }

  /** Nothing matches in an empty cache. */
  lemma EmptyMisses<K, V>(eq: (K, K) -> bool, key: K)
    ensures Find<K, V>([], eq, key) == None
  {
  }

  class PopplerCache<K(0), V(0)> {
    /** The capacity fixed at construction (`cacheSizeA`). */
    const cacheSize: nat
    /** The key comparison, `PopplerCacheKey::operator==` (stored key on the left). */
    const keyEq: (K, K) -> bool
    const keys: array<K>
    const items: array<V>
    /** The last occupied slot; -1 when the cache is empty. */
    var lastValidCacheIndex: int
    /** The occupied slots as `(key, item)` pairs, most recently used first. */
    ghost var Contents: seq<Entry<K, V>>

    /**
     * The capacity is at least one, the arrays are `cacheSize` long and
     * distinct, the occupied slots are a prefix of them, and slot `i` of
     * `Contents` is `(keys[i], items[i])`.
     */
    ghost predicate Valid()
      reads this, keys, items
    {
      cacheSize >= 1 && keys.Length == cacheSize && items.Length == cacheSize &&
      (keys as object) != (items as object) &&
      -1 <= lastValidCacheIndex < cacheSize &&
      |Contents| == lastValidCacheIndex + 1 &&
      forall i :: 0 <= i < |Contents| ==> Contents[i] == (keys[i], items[i])
    }

    /** An empty cache of capacity `cacheSizeA`. */
    constructor (cacheSizeA: nat, eq: (K, K) -> bool)
      requires cacheSizeA >= 1
      ensures Valid() && fresh(keys) && fresh(items)
      ensures cacheSize == cacheSizeA && keyEq == eq
      ensures Contents == []
    {
      cacheSize := cacheSizeA;
      keyEq := eq;
      keys := new K[cacheSizeA];
      items := new V[cacheSizeA];
      lastValidCacheIndex := -1;
      Contents := [];
    }

    /**
     * Moves slots `0 .. hi - 1` of both arrays to `1 .. hi`, overwriting
     * slot `hi` and leaving slot 0 and the slots past `hi` as they were.
     */
    method ShiftDown(hi: nat)
      requires keys.Length == cacheSize && items.Length == cacheSize
      requires (keys as object) != (items as object)
      requires hi < cacheSize
      modifies keys, items
      ensures keys[0] == old(keys[0]) && items[0] == old(items[0])
      ensures forall k :: 1 <= k <= hi ==> keys[k] == old(keys[k - 1]) && items[k] == old(items[k - 1])
      ensures forall k :: hi < k < cacheSize ==> keys[k] == old(keys[k]) && items[k] == old(items[k])
    {
      var k := hi;
      while k > 0
        invariant 0 <= k <= hi
        invariant forall m :: 0 <= m <= k ==> keys[m] == old(keys[m]) && items[m] == old(items[m])
        invariant forall m :: k < m <= hi ==> keys[m] == old(keys[m - 1]) && items[m] == old(items[m - 1])
        invariant forall m :: hi < m < cacheSize ==> keys[m] == old(keys[m]) && items[m] == old(items[m])
      {
        keys[k] := keys[k - 1];
        items[k] := items[k - 1];
        k := k - 1;
      }
    }

    /**
     * The item of the first stored key comparing equal to `key`, promoted to
     * slot 0; the cache keeps ownership of it.  On a miss nothing changes.
     */
    method Lookup(key: K) returns (item: Option<V>)
      requires Valid()
      modifies this, keys, items
      ensures Valid()
      ensures lastValidCacheIndex == old(lastValidCacheIndex)
      ensures Find(old(Contents), keyEq, key).None? ==> item.None? && Contents == old(Contents)
      ensures Find(old(Contents), keyEq, key).Some? ==>
        var i := Find(old(Contents), keyEq, key).value;
        item == Some(old(Contents)[i].1) && Contents == MoveToFront(old(Contents), i)
    {
      var i := 0;
      while i <= lastValidCacheIndex
        invariant 0 <= i <= lastValidCacheIndex + 1
        invariant forall j :: 0 <= j < i ==> !keyEq(Contents[j].0, key)
      {
        if keyEq(keys[i], key) {
          assert Find(Contents, keyEq, key) == Some(i) by {
            FindIsFirst(Contents, keyEq, key, i);
          }
          var k, v := keys[i], items[i];
          ShiftDown(i);
          keys[0] := k;
          items[0] := v;
          Contents := MoveToFront(Contents, i);
          return Some(v);
        }
        i := i + 1;
      }
      return None;
    }

    /**
     * Stores `(key, item)` in slot 0, taking ownership of both.  When the
     * cache is full, one entry (which one is left unspecified) is evicted
     * first; otherwise every entry is kept, one slot further down.
     */
    method Put(key: K, item: V)
      requires Valid()
      modifies this, keys, items
      ensures Valid()
      ensures |Contents| >= 1 && Contents[0] == (key, item)
      ensures |old(Contents)| < cacheSize ==>
        Contents == [(key, item)] + old(Contents) &&
        lastValidCacheIndex == old(lastValidCacheIndex) + 1
      ensures |old(Contents)| == cacheSize ==>
        lastValidCacheIndex == old(lastValidCacheIndex) &&
        exists victim :: 0 <= victim < cacheSize && Contents == [(key, item)] + RemoveAt(old(Contents), victim)
    {
      if lastValidCacheIndex + 1 < cacheSize {
        ShiftDown(lastValidCacheIndex + 1);
        keys[0] := key;
        items[0] := item;
        lastValidCacheIndex := lastValidCacheIndex + 1;
        Contents := [(key, item)] + Contents;
      } else {
        assert 0 <= 0 < cacheSize;
        var victim :| 0 <= victim < cacheSize;
        ShiftDown(victim);
        keys[0] := key;
        items[0] := item;
        Contents := [(key, item)] + RemoveAt(Contents, victim);
      }
    }
  }

  /** A slot whose key matches, preceded only by slots whose keys do not, is what `Find` reports. */
  lemma {:induction false} FindIsFirst<K, V>(entries: seq<Entry<K, V>>, eq: (K, K) -> bool, key: K, i: nat)
    requires i < |entries| && eq(entries[i].0, key)
    requires forall j :: 0 <= j < i ==> !eq(entries[j].0, key)
    ensures Find(entries, eq, key) == Some(i)
  {
    if i > 0 {
      FindIsFirst(entries[1..], eq, key, i - 1);
    }
  }
}

=== FILE: surface.dfy ===
/**
 * The vocabulary of the drawing surface the backend feeds.  The surface
 * itself (cairo) is a foreign library: the model never interprets these
 * operations, it only records, in order, which ones the backend issues.
 */
module Surface {

  /** One unsigned byte (C `unsigned char` / `Guchar`). */
  type Byte = b: int | 0 <= b < 256

  /** A point; coordinates are kept as exact reals (floating-point rounding is not modelled). */
  datatype Pt = Pt(x: real, y: real)

  /** A colour as the interpreter reports it (`GfxRGB`). */
  datatype RGB = RGB(r: real, g: real, b: real)

  datatype LineJoin = JoinMiter | JoinRound | JoinBevel

  datatype LineCap = CapButt | CapRound | CapSquare

  datatype FillRule = Winding | EvenOdd

  /** Pixel formats of image surfaces: 8-bit alpha (stencils) and 32-bit B,G,R,A words. */
  datatype Format = A8 | ARGB32

  /** An image surface created over a pixel buffer the backend filled. */
  datatype Image = Image(format: Format, data: seq<Byte>, width: nat, height: nat, stride: nat)

  /** One positioned glyph of a glyph run (`cairo_glyph_t`). */
  datatype Glyph = Glyph(index: int, x: real, y: real)

  /** One call on the drawing context. */
  datatype Op =
    | Save
    | Restore
    | SetDash(dashes: seq<real>, offset: real)
    | SetLineJoin(join: LineJoin)
    | SetLineCap(cap: LineCap)
    | SetLineWidth(width: real)
    | SetTolerance(tolerance: real)
    | SetMiterLimit(limit: real)
    | MoveTo(p: Pt)
    | LineTo(p: Pt)
    | CurveTo(c1: Pt, c2: Pt, c3: Pt)
    | ClosePath
    | NewPath
    | SetFillRule(rule: FillRule)
    | SetSourceRgb(color: RGB)
    | FillPath
    | StrokePath
    | ClipPath
    | SetFontFace(face: int)
    | SetFontMatrix(xx: real, xy: real, yx: real, yy: real)
    | ShowGlyphs(glyphs: seq<Glyph>)
    | GlyphPath(glyphs: seq<Glyph>)
    | MaskWith(mask: Image)
    | SetSourceImage(source: Image)
    | Paint
}

=== FILE: text_run.dfy ===
/**
 * The glyph loop and render dispatch of `drawString`.  The string's bytes
 * are decoded character by character by the font; each character becomes
 * one positioned glyph, and the text pen advances by the character's width
 * plus character and word spacing (section 9.3 of ISO 32000-1).  The text
 * rendering mode then selects fill, stroke and clip (Table 106 in section
 * 9.3.6 of ISO 32000-1).
 */
module TextRun {
  import opened Surface
  import opened Graphics

  // ---------------------------------------------------------------------
  // Render-mode dispatch

  /** Glyphs are filled when bit 0 of the render mode is clear. */
  predicate FillsText(render: bv32)
  {
    render & 1 == 0
  }

  /** Glyphs are stroked when the two low bits of the render mode are 1 or 2. */
  predicate StrokesText(render: bv32)
  {
    render & 3 == 1 || render & 3 == 2
  }

  /** Glyphs are added to the clip when bit 2 of the render mode is set. */
  predicate ClipsText(render: bv32)
  {
    render & 4 != 0
  }

  /** What a text rendering mode does to the glyphs it paints. */
  datatype Effect = Effect(fill: bool, stroke: bool, clip: bool)

  /**
   * Table 106 of ISO 32000-1, row by row: 0 fill, 1 stroke, 2 fill and
   * stroke, 3 neither, 4 to 6 the same with the glyphs added to the clip,
   * 7 clip only.
   */
  function ModeEffect(mode: nat): (e: Effect)
    requires mode < 8
    ensures e.clip <==> mode >= 4
  {
    if mode == 0 then Effect(true, false, false)
    else if mode == 1 then Effect(false, true, false)
    else if mode == 2 then Effect(true, true, false)
    else if mode == 3 then Effect(false, false, false)
    else if mode == 4 then Effect(true, false, true)
    else if mode == 5 then Effect(false, true, true)
    else if mode == 6 then Effect(true, true, true)
    else Effect(false, false, true)
  }

  /** The three bit tests agree with Table 106 on every one of the eight modes. */
  lemma RenderBitsFollowTable(mode: nat)
    requires mode < 8
    ensures ModeEffect(mode) == Effect(FillsText(mode as bv32), StrokesText(mode as bv32), ClipsText(mode as bv32))
  {
    if mode == 0 {
    } else if mode == 1 {
    } else if mode == 2 {
    } else if mode == 3 {
    } else if mode == 4 {
    } else if mode == 5 {
    } else if mode == 6 {
    } else {
    }
  }

  /**
   * The surface calls that paint a glyph run: a fill with the fill colour,
   * then a stroke of the glyph outlines with the stroke colour, then the
   * outlines added to the clip, each present exactly when its bit test
   * selects it, in that order.
   */
  function RenderOps(render: bv32, glyphs: seq<Glyph>, fill: RGB, stroke: RGB): (ops: seq<Op>)
    ensures |ops| == (if FillsText(render) then 2 else 0) + (if StrokesText(render) then 3 else 0)
                     + (if ClipsText(render) then 2 else 0)
    ensures FillsText(render) <==> ShowGlyphs(glyphs) in ops
    ensures StrokesText(render) <==> StrokePath in ops
    ensures ClipsText(render) <==> ClipPath in ops
    ensures FillsText(render) ==> ops[..2] == [SetSourceRgb(fill), ShowGlyphs(glyphs)]
  {
    (if FillsText(render) then [SetSourceRgb(fill), ShowGlyphs(glyphs)] else [])
    + (if StrokesText(render) then [SetSourceRgb(stroke), GlyphPath(glyphs), StrokePath] else [])
    + (if ClipsText(render) then [GlyphPath(glyphs), ClipPath] else [])
  }

  /**
   * The stroke comes after the fill and uses the stroke colour; the clip
   * comes last.
   */
  lemma RenderOpsOrder(render: bv32, glyphs: seq<Glyph>, fill: RGB, stroke: RGB)
    ensures var ops := RenderOps(render, glyphs, fill, stroke);
      var f := if FillsText(render) then 2 else 0;
      StrokesText(render) ==> f + 3 <= |ops| && ops[f..f + 3] == [SetSourceRgb(stroke), GlyphPath(glyphs), StrokePath]
    ensures var ops := RenderOps(render, glyphs, fill, stroke);
      ClipsText(render) ==> ops[|ops| - 2..] == [GlyphPath(glyphs), ClipPath]
  {
  }

  /** Mode 3 (invisible text) paints nothing even when it reaches the dispatch. */
  lemma InvisibleModePaintsNothing(glyphs: seq<Glyph>, fill: RGB, stroke: RGB)
    ensures RenderOps(3, glyphs, fill, stroke) == []
  {
  }

  // ---------------------------------------------------------------------
  // Glyph placement and advance

  /** Word spacing applies to a character only when it is the single byte 32 (space). */
  predicate IsWordSpace(s: seq<Byte>, p: nat, n: nat)
    requires p < |s|
  {
    n == 1 && s[p] == 32
  }

  /**
   * The text-space displacement after one character: the width scaled by
   * the font size plus character spacing, plus word spacing for a space, on
   * the writing direction's axis; horizontally the whole is scaled by the
   * horizontal scaling.
   */
  function Advance(st: GfxState, info: CharInfo, space: bool): Pt
  {
    var ws := if space then st.wordSpace else 0.0;
    if st.font.vertical then
      Pt(info.dx * st.fontSize, info.dy * st.fontSize + st.charSpace + ws)
    else
      Pt((info.dx * st.fontSize + st.charSpace + ws) * st.horizScaling, info.dy * st.fontSize)
  }

  /**
   * Word spacing adds exactly `wordSpace` along the writing direction
   * (scaled horizontally by the horizontal scaling) and nothing across it.
   */
  lemma WordSpaceShift(st: GfxState, info: CharInfo)
    ensures var with := Advance(st, info, true);
      var without := Advance(st, info, false);
      if st.font.vertical then with.x == without.x && with.y == without.y + st.wordSpace
      else with.y == without.y && with.x == without.x + st.wordSpace * st.horizScaling
  {
  }

  function AddPt(a: Pt, b: Pt): Pt
  {
    Pt(a.x + b.x, a.y + b.y)
  }

  /**
   * The glyph of one character with the pen at `pen`: its index from the
   * font, and its device position, the pen raised by the text rise and
   * moved back by the character's scaled origin.
   */
  function PlaceGlyph(st: GfxState, cfont: CairoFont, info: CharInfo, pen: Pt): Glyph
  {
    var rise := st.textDelta(Pt(0.0, st.rise));
    var origin := st.textDelta(Pt(info.originX * st.fontSize, info.originY * st.fontSize));
    var pos := st.transform(Pt(pen.x + rise.x - origin.x, pen.y + rise.y - origin.y));
    Glyph(cfont.glyphOf(info.code, info.unicode), pos.x, pos.y)
  }

  /** The pen after the character `info` starting at byte `p`. */
  function NextPen(st: GfxState, s: seq<Byte>, p: nat, info: CharInfo, pen: Pt): Pt
    requires p < |s|
  {
    AddPt(pen, st.textDelta(Advance(st, info, IsWordSpace(s, p, info.n))))
  }

  /** The byte counts of the characters of `s` from byte `p` on. */
  function Widths(font: GfxFont, s: seq<Byte>, p: nat): seq<nat>
    requires Progresses(font, s)
    decreases |s| - p
  {
    if |s| <= p then []
    else
      var n := font.nextChar(s[p..]).n;
      assert 1 <= n;
      [n] + Widths(font, s, p + n)
  }

  /**
   * The glyphs of the characters of `s` from byte `p` on, with the pen at
   * `pen`: one glyph per character.
   */
  function Run(st: GfxState, cfont: CairoFont, s: seq<Byte>, p: nat, pen: Pt): (r: seq<Glyph>)
    requires Progresses(st.font, s)
    ensures |r| == |Widths(st.font, s, p)|
    decreases |s| - p
  {
    if |s| <= p then []
    else
      var info := st.font.nextChar(s[p..]);
      assert 1 <= info.n;
      [PlaceGlyph(st, cfont, info, pen)] + Run(st, cfont, s, p + info.n, NextPen(st, s, p, info, pen))
  }

  /** One step of `Run`: the glyph at the pen, then the rest from the next character on. */
  lemma {:induction false} RunStep(st: GfxState, cfont: CairoFont, s: seq<Byte>, p: nat, pen: Pt,
                                   info: CharInfo, glyph: Glyph, next: nat, pen': Pt)
    requires Progresses(st.font, s) && p < |s|
    requires info == st.font.nextChar(s[p..]) && next == p + info.n
    requires glyph == PlaceGlyph(st, cfont, info, pen) && pen' == NextPen(st, s, p, info, pen)
    ensures Run(st, cfont, s, p, pen) == [glyph] + Run(st, cfont, s, next, pen')
  {
  }

  /**
   * The loop step of `BuildGlyphRun`: once the glyphs `done` and the run from
   * byte `p` make up `whole`, so do `done` extended by the next glyph and the
   * run from the next character.
   */
  lemma {:induction false} GlyphStep(st: GfxState, cfont: CairoFont, s: seq<Byte>, p: nat, pen: Pt, done: seq<Glyph>, whole: seq<Glyph>,
                  info: CharInfo, glyph: Glyph, next: nat, pen': Pt)
    requires Progresses(st.font, s) && p < |s|
    requires done + Run(st, cfont, s, p, pen) == whole
    requires info == st.font.nextChar(s[p..]) && next == p + info.n
    requires glyph == PlaceGlyph(st, cfont, info, pen) && pen' == NextPen(st, s, p, info, pen)
    ensures (done + [glyph]) + Run(st, cfont, s, next, pen') == whole
  {
    var rest := Run(st, cfont, s, next, pen');
    RunStep(st, cfont, s, p, pen, info, glyph, next, pen');
    assert (done + [glyph]) + rest == done + ([glyph] + rest);
  }

  function Sum(ns: seq<nat>): nat
  {
    if |ns| == 0 then 0 else ns[0] + Sum(ns[1..])
  }

  /** No more characters than bytes: the `len` glyph slots always suffice. */
  lemma {:induction false} WidthsBound(font: GfxFont, s: seq<Byte>, p: nat)
    requires Progresses(font, s) && p <= |s|
    ensures |Widths(font, s, p)| <= |s| - p
    decreases |s| - p
  {
    if p < |s| {
      var n := font.nextChar(s[p..]).n;
      assert 1 <= n;
      if p + n <= |s| {
        WidthsBound(font, s, p + n);
      } else {
        assert Widths(font, s, p + n) == [];
      }
    }
  }

  /**
   * When no character the loop decodes from `p` on runs past the end, the
   * characters consume exactly the remaining bytes.
   */
  lemma {:induction false} WidthsCover(font: GfxFont, s: seq<Byte>, p: nat)
    requires Progresses(font, s) && FitsFrom(font, s, p)
    requires p <= |s|
    ensures Sum(Widths(font, s, p)) == |s| - p
    decreases |s| - p
  {
    if p < |s| {
      WidthsCover(font, s, p + font.nextChar(s[p..]).n);
    }
  }

  /** A two-byte encoding: every character is two bytes long, as with a 16-bit CMap. */
  function TwoByteFont(): (font: GfxFont)
    ensures forall b: seq<Byte> :: font.nextChar(b).n == 2
  {
    GfxFont(false, (b: seq<Byte>) => CharInfo(2, 0, [], 0.0, 0.0, 0.0, 0.0))
  }

  /**
   * A two-byte encoding decodes every even-length string exactly from any
   * even offset: `FitsFrom` constrains only the offsets where characters
   * start, so the odd offsets do not matter.
   */
  lemma {:induction false} TwoByteFits(s: seq<Byte>, p: nat)
    requires |s| % 2 == 0 && p % 2 == 0 && p <= |s|
    ensures Progresses(TwoByteFont(), s) && FitsFrom(TwoByteFont(), s, p)
    ensures Sum(Widths(TwoByteFont(), s, p)) == |s| - p
    decreases |s| - p
  {
    var font := TwoByteFont();
    if p < |s| {
      TwoByteFits(s, p + 2);
    }
    assert Progresses(font, s);
    WidthsCover(font, s, p);
  }

  /**
   * The glyph loop of `drawString`: `len` glyph slots, of which the first
   * `count` hold the run, one per decoded character, with the pen starting
   * at the current point.
   */
  method BuildGlyphRun(st: GfxState, cfont: CairoFont, s: seq<Byte>) returns (glyphs: array<Glyph>, count: nat)
    requires Progresses(st.font, s)
    ensures glyphs.Length == |s| && count <= |s|
    ensures count == |Widths(st.font, s, 0)|
    ensures glyphs[..count] == Run(st, cfont, s, 0, Pt(st.curX, st.curY))
  {
    glyphs := new Glyph[|s|];
    ghost var whole := Run(st, cfont, s, 0, Pt(st.curX, st.curY));
    ghost var done: seq<Glyph> := [];
    var curX, curY := st.curX, st.curY;
    var p: nat := 0;
    var len: int := |s|;
    count := 0;
    while len > 0
      invariant p + len == |s|
      invariant count <= p && count <= |s|
      invariant glyphs[..count] == done
      invariant done + Run(st, cfont, s, p, Pt(curX, curY)) == whole
      decreases len
    {
      var info := st.font.nextChar(s[p..]);
      var glyph := PlaceGlyph(st, cfont, info, Pt(curX, curY));
      var pen := NextPen(st, s, p, info, Pt(curX, curY));
      var next: nat := p + info.n;
      GlyphStep(st, cfont, s, p, Pt(curX, curY), done, whole, info, glyph, next, pen);
      glyphs[count] := glyph;
      done := done + [glyph];
      curX, curY := pen.x, pen.y;
      p := next;
      len := len - info.n;
      count := count + 1;
    }
  }
}

=== FILE: wrappers.dfy ===
/** Values that may be absent, shared by the backend and the cache. */
module Wrappers {

  datatype Option<T> = None | Some(value: T)
}
